=== FILE: README.md ===
# School management: a verified model of its decision logic

The school-management application is a Next.js front end over a relational
database (Prisma) and a hosted identity provider (Clerk). Most of it is glue.
This project models, in Dafny, the five places where the application makes
decisions, and proves what those decisions guarantee:

- **Access middleware** (`Middleware`). For each request it sees the caller's
  user id, the role claim, and each configured route: whether it matches and
  which roles it admits. It then chooses one of three outcomes: pass through,
  redirect to `/sign-in`, or redirect to the caller's home `/<role>`.
- **Sort menu** (`TableSort`). A three-state cycle over the `sort`/`order`
  query parameters, plus the menu's open state. `SortMenu.HandleSort` edits
  a copy of the query step by step, and is proved equal to the function
  `NextSort`.
- **Filter menu** (`TableFilter`). Set, delete or clear parameters of the
  query map, and read a parameter back for display.
- **Action layer** (`Records`, `Relations`, `Actions`). The create, update
  and delete actions for subjects, teachers, students, parents, results,
  attendances, events and announcements. They are methods of a `Store` class
  whose fields are the tables (maps from primary key to row), the
  teacher–subject join table, and the identity provider's accounts.
  - Integer keys come from one autoincrement counter per table.
  - Each identity-provider call either fails for a reason the model does not
    see (`fault`), or answers from the account map. An id missing from the
    map is the "not found" (404) reply, which updates and deletes tolerate.
  - A failed database write becomes the same `{success: false, error: true}`
    state the actions return for every failure. Two write failures are
    modelled: an update or delete of a missing row, and a create whose user
    id is already a key.
- **Seed script** (`Seed`, `SeedScript`). The index formulas that spread
  foreign keys across the fixed id ranges, each with its range. The
  counter-driven loops that insert the fixture. The proof that the finished
  fixture has these four properties:
  - every foreign key resolves;
  - every result names exactly one of an exam and an assignment;
  - every student sits in a class of their own grade;
  - no class is over capacity: each class receives at most 9 of the 50
    students, and every capacity is at least 15.

The query string of a list page is a `map<string, string>` (`Query.Params`).
Absent optional form fields are `None` (`undefined`). Nullable columns are
`Option` (`None` is `null`).

Three behaviours of the code worth noting:
- The teacher actions link subjects only, never classes.
- The seed's event and announcement class ids `(i % 5) + 1` for i in 1..5
  are classes 1..5 (i = 5 gives class 1).
- A redirect never sends a caller back to the path they asked for
  (`RedirectLeavesPath`), with two exceptions where the middleware
  redirects a request to itself and the browser keeps following it:
  - a signed-in caller requests their own home `/<role>` and a matching
    route excludes their role (`HomeDeniedRedirectsToItself`);
  - a signed-out caller requests `/sign-in` and some configured route
    matches `/sign-in` (`SignInMatchedRedirectsToItself`).

## Model

| member | source | states |
|---|---|---|
| Middleware.RoleOf | src/middleware.ts:15 | the role is never empty: it is the claim when the claim is non-empty, and `"admin"` when the claim is missing or empty |
| Middleware.CheckAccess | src/middleware.ts:31-36 | the loop either passes or redirects to `/<role>`; it redirects exactly when some route matches and does not admit the role |
| Middleware.Handle | src/middleware.ts:10-38 | every redirect goes to `/sign-in` or to `/<role>`; an unauthenticated caller is only ever sent to `/sign-in` |
| Middleware.SignedInLeavesSignIn | src/middleware.ts:20-22 | an authenticated caller on `/sign-in` is sent to `/<role>` whatever the routes say |
| Middleware.AnonymousCaller | src/middleware.ts:24-28 | an unauthenticated caller is sent to `/sign-in` when any route matches, and passes through when none does |
| Middleware.AuthenticatedCaller | src/middleware.ts:30-37 | off the sign-in page, an authenticated caller goes home when some matching route excludes the role, and passes when every matching route admits it |
| Middleware.MissingClaimActsAsAdmin | src/middleware.ts:15 | a missing or empty role claim gives the same outcome as the claim `"admin"` |
| Middleware.RedirectLeavesPath | src/middleware.ts:20-36 | a redirect never targets the requested path, unless that path is `/sign-in` or the caller's own home |
| Middleware.HomeDeniedRedirectsToItself | src/middleware.ts:31-36 | a signed-in student requesting `/student`, matched by a route admitting only admins, is redirected to `/student` again |
| Middleware.SignInMatchedRedirectsToItself | src/middleware.ts:24-28 | a signed-out request for `/sign-in` that some configured route matches is redirected to `/sign-in` again |
| Middleware.DenialByMembership | src/middleware.ts:32-33 | "some route denies the role" can be stated by route membership, without positions |
| Middleware.RouteOrderIrrelevant | src/middleware.ts:5-8 | reordering the configured routes (the same multiset) never changes the outcome |
| TableSort.NextSort | src/components/TableSort.tsx:17-35 | a new field gives sort=field, order=asc; the current field goes asc to desc, desc to neither, and absent or unknown to asc; every other parameter is kept |
| TableSort.Arrow | src/components/TableSort.tsx:63-76 | an arrow is shown exactly for the active field; it is ↑ exactly when order is `asc`, and ↓ otherwise |
| TableSort.SortCycle | src/components/TableSort.tsx:22-35 | from an unsorted query, three choices of one field give asc, then desc, then the original query |
| TableSort.SortMenu.constructor | src/components/TableSort.tsx:15 | the menu starts closed over the current query |
| TableSort.SortMenu.HandleSort | src/components/TableSort.tsx:17-39 | the set/delete sequence on the copied query yields exactly `NextSort`, and the menu is closed |
| TableSort.SortMenu.Toggle | src/components/TableSort.tsx:48 | the button flips the open state and changes nothing else |
| TableSort.SortMenu.Dismiss | src/components/TableSort.tsx:57 | the backdrop closes the menu and changes nothing else |
| TableFilter.Filtered | src/components/TableFilter.tsx:18-24 | an empty value deletes the parameter; any other value sets it to exactly that value; all other parameters are unchanged |
| TableFilter.Selected | src/components/TableFilter.tsx:57 | the select shows the parameter's value, or `""` when it is absent |
| TableFilter.FilterIdempotent | src/components/TableFilter.tsx:19-24 | applying the same filter twice equals applying it once |
| TableFilter.FilterReadBack | src/components/TableFilter.tsx:57 | after a filter the select shows the chosen value (`""` after a delete) |
| TableFilter.FiltersCommute | src/components/TableFilter.tsx:19-24 | filters on two different parameters commute |
| TableFilter.FilterMenu.constructor | src/components/TableFilter.tsx:16 | the menu starts closed over the current query |
| TableFilter.FilterMenu.HandleFilter | src/components/TableFilter.tsx:18-27 | the copied query is edited to exactly `Filtered`, and the menu is closed |
| TableFilter.FilterMenu.ClearFilters | src/components/TableFilter.tsx:29-32 | the query becomes empty, `sort` and `order` included, so every select shows `""`; the menu is closed |
| TableFilter.FilterMenu.Toggle | src/components/TableFilter.tsx:38 | the button flips the open state and changes nothing else |
| TableFilter.FilterMenu.Dismiss | src/components/TableFilter.tsx:47 | the backdrop closes the menu and changes nothing else |
| Records.NonEmpty | src/lib/actions.ts:181-184 | `v \|\| null` on text keeps exactly the present, non-empty values and turns the rest into null |
| Records.NonZero | src/lib/actions.ts:655-656 | `v \|\| null` on an id keeps exactly the present, non-zero ids and turns the rest into null |
| Records.ParsedIds | src/lib/actions.ts:189-191 | `map(parseInt)` over the subject ids fails exactly when some id is NaN; otherwise it gives every number, in order and one per id |
| Records.PasswordPatch | src/lib/actions.ts:251 | the password is replaced exactly when a non-empty one is given; otherwise the stored one is kept |
| Records.LowerChar | src/lib/actions.ts:730 | the result is never a capital and is the same letter in either case; it is a small letter exactly when the input is a letter, and anything but a capital is unchanged |
| Records.Lower | src/lib/actions.ts:730 | lower-casing keeps the length and leaves no capital: each capital becomes its small letter and every other character is unchanged |
| Records.LowerIdempotent | src/lib/actions.ts:730 | lower-casing twice is lower-casing once |
| Records.PresentIff | src/lib/actions.ts:728-730 | `present` is true exactly for the boolean `true` and for the four letters t, r, u, e in any mix of cases |
| Records.UpdatedAccount | src/lib/actions.ts:231-236 | an account update sets username and names, patches the password only when non-empty, and keeps the role |
| Records.TeacherRowOf | src/lib/actions.ts:175-187 | the teacher row's email, phone and img are the non-empty inputs or null, never `""`; username, names, address, blood type, sex and birthday are copied |
| Records.StudentRowOf | src/lib/actions.ts:337-353 | the student row's email, phone and img are normalised the same way; username, names, address, blood type, sex, birthday, class, grade and parent are copied |
| Records.ParentRowOf | src/lib/actions.ts:820-829 | the parent's email is normalised; the phone is stored as given; username, names and address are copied |
| Records.ResultRowOf | src/lib/actions.ts:652-658 | a missing or zero exam id or assignment id becomes null; score and student are copied |
| Records.AttendanceRowOf | src/lib/actions.ts:728-738 | the stored `present` flag is the `present` coercion of the form value |
| Records.EventRowOf | src/lib/actions.ts:1015-1024 | a missing or zero class id makes the event global (null), never class 0; title, description and times are copied |
| Records.AnnouncementRowOf | src/lib/actions.ts:1093-1100 | a missing or zero class id makes the announcement global (null), never class 0; title, description and date are copied |
| Relations.ConnectTeachers | src/lib/actions.ts:41-43 | `connect` adds the listed teachers to the subject's teachers and leaves every other subject's links alone |
| Relations.SetTeachers | src/lib/actions.ts:66-68 | `set` makes the subject's teachers exactly the listed ones and leaves every other subject's links alone |
| Relations.ConnectSubjects | src/lib/actions.ts:188-192 | `connect` adds the listed subjects to the teacher's subjects and leaves every other teacher's links alone |
| Relations.SetSubjects | src/lib/actions.ts:262-266 | `set` makes the teacher's subjects exactly the listed ones and leaves every other teacher's links alone |
| Relations.DropTeacher | src/lib/actions.ts:297-301 | deleting a teacher removes exactly that teacher's join rows |
| Relations.DropSubject | src/lib/actions.ts:86-90 | deleting a subject removes exactly that subject's join rows |
| Relations.ReplaceExample | src/lib/actions.ts:262-266 | a teacher with subjects {1,2} updated with [2,3] ends with exactly {2,3}; `connect` would have given {1,2,3} |
| Relations.ClassSizeInsert | src/lib/actions.ts:337-353 | inserting a student under a fresh id grows that student's class by one and no other class |
| Relations.ClassSizeReplace | src/lib/actions.ts:393-413 | removing a student, or moving one elsewhere by an update, never grows a class |
| Relations.ClassSizeMoveIn | src/lib/actions.ts:393-413 | moving a student from another class into class c by an update grows c by exactly one |
| Relations.UpdateCanOverfill | src/lib/actions.ts:364-424 | the update has no capacity gate: moving a student into a full class leaves it over capacity |
| Relations.GateKeepsCapacity | src/lib/actions.ts:320-327 | if every class is within capacity and the gate lets a new student through, every class is still within capacity |
| Relations.RemovalKeepsCapacity | src/lib/actions.ts:442-446 | deleting a student keeps every class within capacity |
| Actions.ProviderAbortsOnlyOnFault | src/lib/actions.ts:237-244 | a provider call aborts an action exactly on a non-404 error; an unknown account is the tolerated 404 |
| Actions.AccountsAfterUpdate | src/lib/actions.ts:230-244 | an account update changes only the addressed account, and only when it exists (a 404 changes nothing) |
| Actions.Store.CreateSubject | src/lib/actions.ts:33-53 | succeeds, with a new row under a fresh id whose teacher links are `connect`ed |
| Actions.Store.UpdateSubject | src/lib/actions.ts:55-78 | a missing id or row fails with nothing changed; otherwise it renames the subject and `set`s its teachers |
| Actions.Store.DeleteSubject | src/lib/actions.ts:80-98 | an unparsable id or a missing row fails with nothing changed; otherwise it deletes the row and its links |
| Actions.Store.CreateTeacher | src/lib/actions.ts:157-213 | on a rejected form or a provider error nothing changes; otherwise an account with role teacher is made under the issued id; the row keyed by that id is inserted with the parsed subjects connected, and a duplicate id or a NaN subject id fails and leaves the account behind |
| Actions.Store.UpdateTeacher | src/lib/actions.ts:215-279 | a missing id fails before any call; a provider error fails with nothing changed; a 404 is tolerated; a missing row or a NaN subject id then fails with the account already updated; otherwise the row is overwritten, the password patched only when non-empty, and the parsed subjects `set` |
| Actions.Store.DeleteTeacher | src/lib/actions.ts:281-309 | a provider error fails with nothing changed; otherwise the account is gone (404 tolerated), and then the row and its links are deleted, or the action fails when the row is missing |
| Actions.Store.CreateStudent | src/lib/actions.ts:311-362 | an existing class whose count equals its capacity fails before any account is made; otherwise it behaves like the teacher create with role student; capacity is preserved |
| Actions.Store.UpdateStudent | src/lib/actions.ts:364-424 | the same control flow as the teacher update, with no capacity check: a successful move into a full class leaves it over capacity |
| Actions.Store.DeleteStudent | src/lib/actions.ts:426-454 | the same control flow as the teacher delete; capacity is preserved |
| Actions.Store.CreateParent | src/lib/actions.ts:804-838 | an account with role parent is made under the issued id, then the row keyed by that id is inserted |
| Actions.Store.UpdateParent | src/lib/actions.ts:840-890 | a missing id fails before any call; a 404 is tolerated; the row is overwritten, with no password column |
| Actions.Store.DeleteParent | src/lib/actions.ts:892-921 | the account is removed (404 tolerated), then the row, or the action fails when the row is missing |
| Actions.Store.CreateResult | src/lib/actions.ts:644-667 | succeeds with a new row under a fresh id, with missing or zero exam and assignment ids nulled |
| Actions.Store.UpdateResult | src/lib/actions.ts:669-695 | a missing id or row fails with nothing changed; otherwise the row is overwritten |
| Actions.Store.DeleteResult | src/lib/actions.ts:697-716 | an unparsable id or a missing row fails with nothing changed; otherwise the row is deleted |
| Actions.Store.CreateAttendance | src/lib/actions.ts:720-747 | succeeds with a new row under a fresh id, with `present` coerced |
| Actions.Store.UpdateAttendance | src/lib/actions.ts:749-779 | a missing id or row fails with nothing changed; otherwise the row is overwritten with `present` coerced |
| Actions.Store.DeleteAttendance | src/lib/actions.ts:781-800 | an unparsable id or a missing row fails with nothing changed; otherwise the row is deleted |
| Actions.Store.CreateEvent | src/lib/actions.ts:1007-1031 | succeeds with a new row under a fresh id; a missing or zero class makes it global |
| Actions.Store.UpdateEvent | src/lib/actions.ts:1033-1060 | a missing id or row fails with nothing changed; otherwise the row is overwritten |
| Actions.Store.DeleteEvent | src/lib/actions.ts:1062-1081 | an unparsable id or a missing row fails with nothing changed; otherwise the row is deleted |
| Actions.Store.CreateAnnouncement | src/lib/actions.ts:1085-1108 | succeeds with a new row under a fresh id; a missing or zero class makes it global |
| Actions.Store.UpdateAnnouncement | src/lib/actions.ts:1110-1136 | a missing id or row fails with nothing changed; otherwise the row is overwritten |
| Actions.Store.DeleteAnnouncement | src/lib/actions.ts:1138-1157 | an unparsable id or a missing row fails with nothing changed; otherwise the row is deleted |
| Seed.ClassGrade | prisma/seed.ts:27 | class k belongs to grade k, one of the six grades |
| Seed.Capacity | prisma/seed.ts:28 | every class capacity lies in 15..20 |
| Seed.Supervisor | prisma/seed.ts:96-119 | classes 1 and 2 are supervised by teacher 1, class k > 2 by teacher k - 1, always one of the 15 teachers |
| Seed.TeacherSubject | prisma/seed.ts:83 | the subject of teacher i in 2..15 lies in 1..10 |
| Seed.TeacherClasses | prisma/seed.ts:84-88 | the two classes of teacher i in 2..15 are distinct and lie in 1..6 |
| Seed.LessonSubject | prisma/seed.ts:168 | the subject of lesson i in 16..30 lies in 1..10 |
| Seed.LessonClass | prisma/seed.ts:169 | the class of lesson i in 16..30 lies in 1..6 |
| Seed.LessonTeacher | prisma/seed.ts:170 | the teacher of lesson i in 16..30 lies in 2..15 |
| Seed.CeilHalf | prisma/seed.ts:203 | `Math.ceil(i / 2)` is the c with 2c - 1 <= i <= 2c |
| Seed.StudentParent | prisma/seed.ts:203 | the parent of student i in 1..50 lies in 1..25; the `% 25 \|\| 25` never changes ceil(i/2) in this range |
| Seed.StudentClass | prisma/seed.ts:205 | a student's class lies in 1..6 |
| Seed.StudentGrade | prisma/seed.ts:204 | a student's grade lies in 1..6 and is the grade of the student's class |
| Seed.WorkLesson | prisma/seed.ts:218 | the lesson of exam, assignment and attendance i in 1..10 lies in 2..11, within the 30 lessons |
| Seed.ResultTarget | prisma/seed.ts:241 | result i sets exactly one of exam (1..5) and assignment (1..5) |
| Seed.NoticeClass | prisma/seed.ts:266 | the class of event and announcement i in 1..5 lies in 1..5 |
| Seed.TwoStudentsPerParent | prisma/seed.ts:203 | parent p is the parent of exactly students 2p - 1 and 2p |
| Seed.CycleStep | prisma/seed.ts:205 | the next student joins class k exactly when the closed-form count for class k goes up by one |
| Seed.ClassLoadExact | prisma/seed.ts:191-205 | the first n students put exactly (n + 6 - Phase(k)) / 6 into class k |
| Seed.ClassLoadBound | prisma/seed.ts:191-205 | with 50 students no class receives more than 9 |
| SeedScript.SeedClasses | prisma/seed.ts:23-31 | class i is in grade i, has capacity 15 plus its draw, and has no supervisor yet |
| SeedScript.SeedTeachers | prisma/seed.ts:53-93 | teacher 1 has subjects and classes {1,2}; teacher i in 2..15 has its formula subject and two formula classes |
| SeedScript.AssignSupervisors | prisma/seed.ts:96-119 | the six updates give class k the supervisor `Supervisor(k)` and change nothing else |
| SeedScript.SeedLessons | prisma/seed.ts:124-173 | lessons 1..15 are teacher 1's fixed schedule; lesson i in 16..30 has its formula subject, class and teacher |
| SeedScript.SeedStudents | prisma/seed.ts:191-209 | student i has its formula parent, grade and class |
| SeedScript.SeedWorkLessons | prisma/seed.ts:212-233 | exam (and assignment) i is in lesson `(i % 30) + 1` |
| SeedScript.SeedResults | prisma/seed.ts:236-244 | result i belongs to student i and to exam i or assignment i - 5 |
| SeedScript.SeedAttendances | prisma/seed.ts:247-256 | attendance i belongs to student i and lesson `(i % 30) + 1` |
| SeedScript.SeedNoticeClasses | prisma/seed.ts:259-281 | event (and announcement) i is for class `(i % 5) + 1` |
| SeedScript.SeedAll | prisma/seed.ts:12-281 | the fixture has the script's row counts; every foreign key resolves; results link one target; students sit in their grade's class; no class is over capacity; teacher 1 teaches only its own subjects and classes |

## Left out

- Validation: the form schemas are not part of this model. `schema.parse` is an input `parsed: Option<…>`, where None is a rejected form.
- `parseInt` on a delete's form id is an input `Option<int>`, where None is NaN. Prisma rejects NaN, so None fails.
- `parseInt` on each teacher subject id is likewise an input `Option<int>` per id; which strings read as NaN is not modelled.
- Database constraint failures are not modelled: foreign keys (a link to a missing teacher, a student with a missing class or parent), cascades and restricted deletes, and unique usernames. Only a missing row on update or delete and a duplicate user id on create fail.
- Which error the identity provider raises is not visible; it is the boolean `fault`. Its account ids are the input `issuedId`, required to name no existing account, since the provider issues fresh ids. Validation errors it raises for a password or username are part of `fault`.
- Orphaned accounts: when the row insert fails after the account was made, the account stays behind. The create methods state this, and there is no compensating delete, since the source has none.
- Concurrency: the capacity gate reads and then writes with no lock. Concurrent creates can overfill a class, and the model is sequential.
- Class, exam, assignment and lesson actions in the same file are not part of this model; nor is the class table's own upkeep (classes are given to `Store`'s constructor).
- Logging, `revalidatePath` (commented out in the source), async/await and exceptions: every caught error becomes the single failure state.
- The teacher–class and supervisor relations are not part of the action model. The database schema is not part of this model.
- Teacher and student rows carry a `password` column because the row updates spread the password into the row (src/lib/actions.ts:251 and 398); no create writes it. The database schema is not part of this model, so whether the column exists is taken from those updates.
- Records.Lower: lower-cases ASCII letters only, not the full Unicode case mapping of `toLowerCase`.
- Middleware: the route table and the glob semantics of route matching are inputs (`Route.matches`, `Route.allowedRoles`). So is the `config.matcher` pattern that selects which requests reach the middleware at all.
- Middleware: the `console.log` lines are not modelled, and the request URL's origin is not part of a redirect target.
- Query: `URLSearchParams` is a map. Repeated keys, key order and the serialised string are not modelled, nor are `router.push` and `window.location`.
- The attendance and assignment form components, the logout button and the root page are UI wrappers, and are not part of this model.
- Seed: clock readings (`new Date()`, birthdays, lesson and exam times), the random lesson day and the names and contact strings are not modelled. The random capacity is the draw `d` in 0..5.
- Seed: grades, subjects and parents are plain counts (6, 10, 25), with no row contents. Teachers are numbered 1..15, where teacher 1 stands for the one with the provider-issued id.

=== FILE: actions.dfy ===
/**
 * The create / update / delete actions, over an in-memory store.
 *
 * The database is a set of tables held as maps from primary key to row;
 * integer keys come from one autoincrement counter per table. The identity
 * provider is the map `accounts` from account id to account. Each provider
 * call either fails for a reason the model does not see (`fault`, any
 * error other than "not found") or answers from `accounts`; `createUser`
 * issues the id `issuedId`, which names no existing account. Validation
 * is abstract: the validated record arrives as `parsed`, and None stands
 * for a schema that rejected the form.
 */
module Actions {
  import opened Wrappers
  import opened Records
  import opened Relations

  /** The `{success, error}` state every action returns. */
  datatype ActionState = ActionState(success: bool, error: bool)

  const Succeeded := ActionState(true, false)
  const Failed := ActionState(false, true)

  /** What an identity-provider call reports. */
  datatype Reply = Ok | NotFound | Other

  /** The provider's reply to a call about account `id`. */
  function ProviderReply(accounts: map<string, Account>, id: string, fault: bool): (r: Reply)
    ensures r == Other <==> fault
    ensures r == NotFound <==> !fault && id !in accounts
    ensures r == Ok <==> !fault && id in accounts
  {
    if fault then Other else if id in accounts then Ok else NotFound
  }

  /** The tolerate-404 policy: only an error other than "not found" aborts the action. */
  predicate Tolerated(r: Reply) {
    r != Other
  }

  /**
   * The tolerate-404 policy as seen by an action: the provider call aborts it
   * exactly on a fault, so a missing account never aborts an update or delete.
   */
  lemma ProviderAbortsOnlyOnFault(accounts: map<string, Account>, id: string, fault: bool)
    ensures !Tolerated(ProviderReply(accounts, id, fault)) <==> fault
    ensures id !in accounts && !fault ==> ProviderReply(accounts, id, fault) == NotFound
  {
  }

  /** `!validatedData.id`: the id is missing or empty. */
  predicate MissingId(id: Option<string>) {
    id.None? || id.value == ""
  }

  /** Every key of an autoincrement table was issued by its counter, which starts at 1. */
  ghost predicate IssuedBelow(keys: set<int>, next: int) {
    1 <= next && forall k :: k in keys ==> 1 <= k < next
  }

  /** The accounts after `updateUser` on `id`: changed when the account exists, untouched on 404. */
  function AccountsAfterUpdate(accounts: map<string, Account>, id: string, username: string,
                               password: Option<string>, name: string, surname: string): (r: map<string, Account>)
    ensures r.Keys == accounts.Keys
    ensures forall a :: a in accounts && a != id ==> r[a] == accounts[a]
    ensures id in accounts ==> r[id] == UpdatedAccount(accounts[id], username, password, name, surname)
  {
    if id in accounts then accounts[id := UpdatedAccount(accounts[id], username, password, name, surname)]
    else accounts
  }

  class Store {
    var accounts: map<string, Account>
    var classes: map<int, ClassRow>
    var subjects: map<int, SubjectRow>
    var nextSubjectId: int
    var teaching: set<Link>
    var teachers: map<string, TeacherRow>
    var students: map<string, StudentRow>
    var parents: map<string, ParentRow>
    var results: map<int, ResultRow>
    var nextResultId: int
    var attendances: map<int, AttendanceRow>
    var nextAttendanceId: int
    var events: map<int, EventRow>
    var nextEventId: int
    var announcements: map<int, AnnouncementRow>
    var nextAnnouncementId: int

    ghost predicate Valid()
      reads this
    {
      && IssuedBelow(subjects.Keys, nextSubjectId)
      && IssuedBelow(results.Keys, nextResultId)
      && IssuedBelow(attendances.Keys, nextAttendanceId)
      && IssuedBelow(events.Keys, nextEventId)
      && IssuedBelow(announcements.Keys, nextAnnouncementId)
    }

    /** An empty school over the given classes (the class actions are not part of this model). */
    constructor (classes: map<int, ClassRow>)
      ensures Valid()
      ensures this.classes == classes && accounts == map[] && teaching == {}
      ensures subjects == map[] && teachers == map[] && students == map[] && parents == map[]
      ensures results == map[] && attendances == map[] && events == map[] && announcements == map[]
    {
      this.classes := classes;
      accounts := map[];
      subjects, nextSubjectId := map[], 1;
      teaching := {};
      teachers, students, parents := map[], map[], map[];
      results, nextResultId := map[], 1;
      attendances, nextAttendanceId := map[], 1;
      events, nextEventId := map[], 1;
      announcements, nextAnnouncementId := map[], 1;
    }

    // -------------------------------------------------------------------
    // Subject

    /** `createSubject`: a new row under a fresh id, linked to the given teachers. */
    method CreateSubject(data: SubjectForm) returns (r: ActionState)
      requires Valid()
      modifies this`subjects, this`nextSubjectId, this`teaching
      ensures Valid()
      ensures r == Succeeded
      ensures old(nextSubjectId) !in old(subjects)
      ensures subjects == old(subjects)[old(nextSubjectId) := SubjectRow(data.name)]
      ensures teaching == ConnectTeachers(old(teaching), old(nextSubjectId), data.teachers)
    {
      var id := nextSubjectId;
      subjects := subjects[id := SubjectRow(data.name)];
      nextSubjectId := id + 1;
      teaching := ConnectTeachers(teaching, id, data.teachers);
      r := Succeeded;
    }

    /** `updateSubject`: rename the row and replace its teacher links; a missing row fails. */
    method UpdateSubject(data: SubjectForm) returns (r: ActionState)
      requires Valid()
      modifies this`subjects, this`teaching
      ensures Valid()
      ensures data.id.None? || data.id.value !in old(subjects) ==> r == Failed && unchanged(this)
      ensures data.id.Some? && data.id.value in old(subjects) ==>
                && r == Succeeded
                && subjects == old(subjects)[data.id.value := SubjectRow(data.name)]
                && teaching == SetTeachers(old(teaching), data.id.value, data.teachers)
    {
      if data.id.None? || data.id.value !in subjects {
        return Failed;
      }
      var id := data.id.value;
      subjects := subjects[id := SubjectRow(data.name)];
      teaching := SetTeachers(teaching, id, data.teachers);
      r := Succeeded;
    }

    /** `deleteSubject`: `id` is `parseInt` of the form field (None for NaN). */
    method DeleteSubject(id: Option<int>) returns (r: ActionState)
      requires Valid()
      modifies this`subjects, this`teaching
      ensures Valid()
      ensures id.None? || id.value !in old(subjects) ==> r == Failed && unchanged(this)
      ensures id.Some? && id.value in old(subjects) ==>
                && r == Succeeded
                && subjects == old(subjects) - {id.value}
                && teaching == DropSubject(old(teaching), id.value)
    {
      if id.None? || id.value !in subjects {
        return Failed;
      }
      subjects := subjects - {id.value};
      teaching := DropSubject(teaching, id.value);
      r := Succeeded;
    }

    // -------------------------------------------------------------------
    // Teacher

    /**
     * `createTeacher`: make a provider account with role teacher, then a row
     * keyed by the issued id, linked to the chosen subjects. If the row
     * cannot be inserted (its id is taken, or a subject id is NaN) the
     * account stays behind.
     */
    method CreateTeacher(parsed: Option<TeacherForm>, fault: bool, issuedId: string) returns (r: ActionState)
      requires Valid()
      requires issuedId !in accounts
      modifies this`accounts, this`teachers, this`teaching
      ensures Valid()
      ensures r == Succeeded || r == Failed
      ensures parsed.None? || fault ==> r == Failed && unchanged(this)
      ensures parsed.Some? && !fault ==>
                var f := parsed.value;
                && accounts == old(accounts)[issuedId := NewAccount(f.username, f.password, f.name, f.surname, TeacherRole)]
                && (issuedId in old(teachers) || NaNSubject(f) ==>
                      r == Failed && teachers == old(teachers) && teaching == old(teaching))
                && (issuedId !in old(teachers) && !NaNSubject(f) ==>
                      && r == Succeeded
                      && teachers == old(teachers)[issuedId := TeacherRowOf(f, None)]
                      && teaching == (if f.subjects.Some? then ConnectSubjects(old(teaching), issuedId, ParsedIds(f.subjects.value).value)
                                      else old(teaching)))
    {
      if parsed.None? {
        return Failed;
      }
      var f := parsed.value;
      if fault {
        return Failed;
      }
      accounts := accounts[issuedId := NewAccount(f.username, f.password, f.name, f.surname, TeacherRole)];
      if issuedId in teachers || NaNSubject(f) {
        return Failed;
      }
      teachers := teachers[issuedId := TeacherRowOf(f, None)];
      if f.subjects.Some? {
        teaching := ConnectSubjects(teaching, issuedId, ParsedIds(f.subjects.value).value);
      }
      r := Succeeded;
    }

    /**
     * `updateTeacher`: fail early without an id; update the provider account
     * (tolerating 404); then overwrite the row, keep the stored password
     * unless a non-empty one is given, and replace the subject links. A NaN
     * subject id fails the row write after the account was updated.
     */
    method UpdateTeacher(parsed: Option<TeacherForm>, fault: bool) returns (r: ActionState)
      requires Valid()
      modifies this`accounts, this`teachers, this`teaching
      ensures Valid()
      ensures r == Succeeded || r == Failed
      ensures parsed.None? || MissingId(parsed.value.id) || fault ==> r == Failed && unchanged(this)
      ensures parsed.Some? && !MissingId(parsed.value.id) && !fault ==>
                var f := parsed.value;
                var id := f.id.value;
                && accounts == AccountsAfterUpdate(old(accounts), id, f.username, f.password, f.name, f.surname)
                && (id !in old(teachers) || NaNSubject(f) ==>
                      r == Failed && teachers == old(teachers) && teaching == old(teaching))
                && (id in old(teachers) && !NaNSubject(f) ==>
                      && r == Succeeded
                      && teachers == old(teachers)[id := TeacherRowOf(f, PasswordPatch(old(teachers)[id].password, f.password))]
                      && teaching == (if f.subjects.Some? then SetSubjects(old(teaching), id, ParsedIds(f.subjects.value).value)
                                      else old(teaching)))
    {
      if parsed.None? {
        return Failed;
      }
      var f := parsed.value;
      if MissingId(f.id) {
        return Failed;
      }
      var id := f.id.value;
      var reply := ProviderReply(accounts, id, fault);
      if !Tolerated(reply) {
        return Failed;
      }
      if reply == Ok {
        accounts := accounts[id := UpdatedAccount(accounts[id], f.username, f.password, f.name, f.surname)];
      }
      if id !in teachers || NaNSubject(f) {
        return Failed;
      }
      teachers := teachers[id := TeacherRowOf(f, PasswordPatch(teachers[id].password, f.password))];
      if f.subjects.Some? {
        teaching := SetSubjects(teaching, id, ParsedIds(f.subjects.value).value);
      }
      r := Succeeded;
    }

    /** `deleteTeacher`: delete the provider account (tolerating 404), then the row and its links. */
    method DeleteTeacher(id: string, fault: bool) returns (r: ActionState)
      requires Valid()
      modifies this`accounts, this`teachers, this`teaching
      ensures Valid()
      ensures r == Succeeded || r == Failed
      ensures fault ==> r == Failed && unchanged(this)
      ensures !fault ==> accounts == old(accounts) - {id}
      ensures !fault && id !in old(teachers) ==> r == Failed && teachers == old(teachers) && teaching == old(teaching)
      ensures !fault && id in old(teachers) ==>
                && r == Succeeded
                && teachers == old(teachers) - {id}
                && teaching == DropTeacher(old(teaching), id)
    {
      var reply := ProviderReply(accounts, id, fault);
      if !Tolerated(reply) {
        return Failed;
      }
      if reply == Ok {
        accounts := accounts - {id};
      }
      if id !in teachers {
        return Failed;
      }
      teachers := teachers - {id};
      teaching := DropTeacher(teaching, id);
      r := Succeeded;
    }

    // -------------------------------------------------------------------
    // Student

    /**
     * `createStudent`: refuse when the chosen class exists and is exactly
     * full, before touching the provider; otherwise make an account with
     * role student, then a row keyed by the issued id.
     */
    method CreateStudent(parsed: Option<StudentForm>, fault: bool, issuedId: string) returns (r: ActionState)
      requires Valid()
      requires issuedId !in accounts
      modifies this`accounts, this`students
      ensures Valid()
      ensures r == Succeeded || r == Failed
      ensures parsed.None? || fault ==> r == Failed && unchanged(this)
      ensures parsed.Some? && ClassFull(old(classes), old(students), parsed.value.classId) ==>
                r == Failed && unchanged(this)
      ensures parsed.Some? && !ClassFull(old(classes), old(students), parsed.value.classId) && !fault ==>
                var f := parsed.value;
                && accounts == old(accounts)[issuedId := NewAccount(f.username, f.password, f.name, f.surname, StudentRole)]
                && (issuedId in old(students) ==> r == Failed && students == old(students))
                && (issuedId !in old(students) ==>
                      r == Succeeded && students == old(students)[issuedId := StudentRowOf(f, None)])
      ensures old(WithinCapacity(classes, students)) ==> WithinCapacity(classes, students)
    {
      if parsed.None? {
        return Failed;
      }
      var f := parsed.value;
      if ClassFull(classes, students, f.classId) {
        return Failed;
      }
      if fault {
        return Failed;
      }
      accounts := accounts[issuedId := NewAccount(f.username, f.password, f.name, f.surname, StudentRole)];
      if issuedId in students {
        return Failed;
      }
      if WithinCapacity(classes, students) {
        GateKeepsCapacity(classes, students, issuedId, StudentRowOf(f, None));
      }
      students := students[issuedId := StudentRowOf(f, None)];
      r := Succeeded;
    }

    /**
     * `updateStudent`: fail early without an id; update the provider account
     * (tolerating 404); then overwrite the row, keeping the stored password
     * unless a non-empty one is given. There is no capacity check here, so a
     * student moved into a full class leaves it over capacity.
     */
    method UpdateStudent(parsed: Option<StudentForm>, fault: bool) returns (r: ActionState)
      requires Valid()
      modifies this`accounts, this`students
      ensures Valid()
      ensures r == Succeeded || r == Failed
      ensures parsed.None? || MissingId(parsed.value.id) || fault ==> r == Failed && unchanged(this)
      ensures parsed.Some? && !MissingId(parsed.value.id) && !fault ==>
                var f := parsed.value;
                var id := f.id.value;
                && accounts == AccountsAfterUpdate(old(accounts), id, f.username, f.password, f.name, f.surname)
                && (id !in old(students) ==> r == Failed && students == old(students))
                && (id in old(students) ==>
                      && r == Succeeded
                      && students == old(students)[id := StudentRowOf(f, PasswordPatch(old(students)[id].password, f.password))])
      ensures r == Succeeded && ClassFull(old(classes), old(students), parsed.value.classId) &&
              old(students)[parsed.value.id.value].classId != parsed.value.classId ==>
                !WithinCapacity(classes, students)
    {
      if parsed.None? {
        return Failed;
      }
      var f := parsed.value;
      if MissingId(f.id) {
        return Failed;
      }
      var id := f.id.value;
      var reply := ProviderReply(accounts, id, fault);
      if !Tolerated(reply) {
        return Failed;
      }
      if reply == Ok {
        accounts := accounts[id := UpdatedAccount(accounts[id], f.username, f.password, f.name, f.surname)];
      }
      if id !in students {
        return Failed;
      }
      var row := StudentRowOf(f, PasswordPatch(students[id].password, f.password));
      if ClassFull(classes, students, f.classId) && students[id].classId != f.classId {
        UpdateCanOverfill(classes, students, id, row);
      }
      students := students[id := row];
      r := Succeeded;
    }

    /** `deleteStudent`: delete the provider account (tolerating 404), then the row. */
    method DeleteStudent(id: string, fault: bool) returns (r: ActionState)
      requires Valid()
      modifies this`accounts, this`students
      ensures Valid()
      ensures r == Succeeded || r == Failed
      ensures fault ==> r == Failed && unchanged(this)
      ensures !fault ==> accounts == old(accounts) - {id}
      ensures !fault && id !in old(students) ==> r == Failed && students == old(students)
      ensures !fault && id in old(students) ==> r == Succeeded && students == old(students) - {id}
      ensures old(WithinCapacity(classes, students)) ==> WithinCapacity(classes, students)
    {
      var reply := ProviderReply(accounts, id, fault);
      if !Tolerated(reply) {
        return Failed;
      }
      if reply == Ok {
        accounts := accounts - {id};
      }
      if id !in students {
        return Failed;
      }
      if WithinCapacity(classes, students) {
        RemovalKeepsCapacity(classes, students, id);
      }
      students := students - {id};
      r := Succeeded;
    }

    // -------------------------------------------------------------------
    // Parent

    /** `createParent`: make an account with role parent, then a row keyed by the issued id. */
    method CreateParent(parsed: Option<ParentForm>, fault: bool, issuedId: string) returns (r: ActionState)
      requires Valid()
      requires issuedId !in accounts
      modifies this`accounts, this`parents
      ensures Valid()
      ensures r == Succeeded || r == Failed
      ensures parsed.None? || fault ==> r == Failed && unchanged(this)
      ensures parsed.Some? && !fault ==>
                var f := parsed.value;
                && accounts == old(accounts)[issuedId := NewAccount(f.username, f.password, f.name, f.surname, ParentRole)]
                && (issuedId in old(parents) ==> r == Failed && parents == old(parents))
                && (issuedId !in old(parents) ==> r == Succeeded && parents == old(parents)[issuedId := ParentRowOf(f)])
    {
      if parsed.None? {
        return Failed;
      }
      var f := parsed.value;
      if fault {
        return Failed;
      }
      accounts := accounts[issuedId := NewAccount(f.username, f.password, f.name, f.surname, ParentRole)];
      if issuedId in parents {
        return Failed;
      }
      parents := parents[issuedId := ParentRowOf(f)];
      r := Succeeded;
    }

    /** `updateParent`: like the teacher update, but the row has no password column. */
    method UpdateParent(parsed: Option<ParentForm>, fault: bool) returns (r: ActionState)
      requires Valid()
      modifies this`accounts, this`parents
      ensures Valid()
      ensures r == Succeeded || r == Failed
      ensures parsed.None? || MissingId(parsed.value.id) || fault ==> r == Failed && unchanged(this)
      ensures parsed.Some? && !MissingId(parsed.value.id) && !fault ==>
                var f := parsed.value;
                var id := f.id.value;
                && accounts == AccountsAfterUpdate(old(accounts), id, f.username, f.password, f.name, f.surname)
                && (id !in old(parents) ==> r == Failed && parents == old(parents))
                && (id in old(parents) ==> r == Succeeded && parents == old(parents)[id := ParentRowOf(f)])
    {
      if parsed.None? {
        return Failed;
      }
      var f := parsed.value;
      if MissingId(f.id) {
        return Failed;
      }
      var id := f.id.value;
      var reply := ProviderReply(accounts, id, fault);
      if !Tolerated(reply) {
        return Failed;
      }
      if reply == Ok {
        accounts := accounts[id := UpdatedAccount(accounts[id], f.username, f.password, f.name, f.surname)];
      }
      if id !in parents {
        return Failed;
      }
      parents := parents[id := ParentRowOf(f)];
      r := Succeeded;
    }

    /** `deleteParent`: delete the provider account (tolerating 404), then the row. */
    method DeleteParent(id: string, fault: bool) returns (r: ActionState)
      requires Valid()
      modifies this`accounts, this`parents
      ensures Valid()
      ensures r == Succeeded || r == Failed
      ensures fault ==> r == Failed && unchanged(this)
      ensures !fault ==> accounts == old(accounts) - {id}
      ensures !fault && id !in old(parents) ==> r == Failed && parents == old(parents)
      ensures !fault && id in old(parents) ==> r == Succeeded && parents == old(parents) - {id}
    {
      var reply := ProviderReply(accounts, id, fault);
      if !Tolerated(reply) {
        return Failed;
      }
      if reply == Ok {
        accounts := accounts - {id};
      }
      if id !in parents {
        return Failed;
      }
      parents := parents - {id};
      r := Succeeded;
    }

    // -------------------------------------------------------------------
    // Result

    /** `createResult`: a new row under a fresh id, with zero / missing exam and assignment ids nulled. */
    method CreateResult(parsed: Option<ResultForm>) returns (r: ActionState)
      requires Valid()
      modifies this`results, this`nextResultId
      ensures Valid()
      ensures parsed.None? ==> r == Failed && unchanged(this)
      ensures parsed.Some? ==>
                && r == Succeeded
                && old(nextResultId) !in old(results)
                && results == old(results)[old(nextResultId) := ResultRowOf(parsed.value)]
    {
      if parsed.None? {
        return Failed;
      }
      var id := nextResultId;
      results := results[id := ResultRowOf(parsed.value)];
      nextResultId := id + 1;
      r := Succeeded;
    }

    /** `updateResult`: overwrite an existing row; a missing id or row fails. */
    method UpdateResult(parsed: Option<ResultForm>) returns (r: ActionState)
      requires Valid()
      modifies this`results
      ensures Valid()
      ensures parsed.None? || parsed.value.id.None? || parsed.value.id.value !in old(results) ==>
                r == Failed && unchanged(this)
      ensures parsed.Some? && parsed.value.id.Some? && parsed.value.id.value in old(results) ==>
                r == Succeeded && results == old(results)[parsed.value.id.value := ResultRowOf(parsed.value)]
    {
      if parsed.None? || parsed.value.id.None? || parsed.value.id.value !in results {
        return Failed;
      }
      results := results[parsed.value.id.value := ResultRowOf(parsed.value)];
      r := Succeeded;
    }

    /** `deleteResult`: `id` is `parseInt` of the form field (None for NaN). */
    method DeleteResult(id: Option<int>) returns (r: ActionState)
      requires Valid()
      modifies this`results
      ensures Valid()
      ensures id.None? || id.value !in old(results) ==> r == Failed && unchanged(this)
      ensures id.Some? && id.value in old(results) ==> r == Succeeded && results == old(results) - {id.value}
    {
      if id.None? || id.value !in results {
        return Failed;
      }
      results := results - {id.value};
      r := Succeeded;
    }

    // -------------------------------------------------------------------
    // Attendance

    /** `createAttendance`: a new row under a fresh id, with `present` coerced. */
    method CreateAttendance(parsed: Option<AttendanceForm>) returns (r: ActionState)
      requires Valid()
      modifies this`attendances, this`nextAttendanceId
      ensures Valid()
      ensures parsed.None? ==> r == Failed && unchanged(this)
      ensures parsed.Some? ==>
                && r == Succeeded
                && old(nextAttendanceId) !in old(attendances)
                && attendances == old(attendances)[old(nextAttendanceId) := AttendanceRowOf(parsed.value)]
    {
      if parsed.None? {
        return Failed;
      }
      var id := nextAttendanceId;
      attendances := attendances[id := AttendanceRowOf(parsed.value)];
      nextAttendanceId := id + 1;
      r := Succeeded;
    }

    /** `updateAttendance`: overwrite an existing row; a missing id or row fails. */
    method UpdateAttendance(parsed: Option<AttendanceForm>) returns (r: ActionState)
      requires Valid()
      modifies this`attendances
      ensures Valid()
      ensures parsed.None? || parsed.value.id.None? || parsed.value.id.value !in old(attendances) ==>
                r == Failed && unchanged(this)
      ensures parsed.Some? && parsed.value.id.Some? && parsed.value.id.value in old(attendances) ==>
                r == Succeeded && attendances == old(attendances)[parsed.value.id.value := AttendanceRowOf(parsed.value)]
    {
      if parsed.None? || parsed.value.id.None? || parsed.value.id.value !in attendances {
        return Failed;
      }
      attendances := attendances[parsed.value.id.value := AttendanceRowOf(parsed.value)];
      r := Succeeded;
    }

    /** `deleteAttendance`: `id` is `parseInt` of the form field (None for NaN). */
    method DeleteAttendance(id: Option<int>) returns (r: ActionState)
      requires Valid()
      modifies this`attendances
      ensures Valid()
      ensures id.None? || id.value !in old(attendances) ==> r == Failed && unchanged(this)
      ensures id.Some? && id.value in old(attendances) ==> r == Succeeded && attendances == old(attendances) - {id.value}
    {
      if id.None? || id.value !in attendances {
        return Failed;
      }
      attendances := attendances - {id.value};
      r := Succeeded;
    }

    // -------------------------------------------------------------------
    // Event

    /** `createEvent`: a new row under a fresh id; a missing or zero class id makes it global. */
    method CreateEvent(parsed: Option<EventForm>) returns (r: ActionState)
      requires Valid()
      modifies this`events, this`nextEventId
      ensures Valid()
      ensures parsed.None? ==> r == Failed && unchanged(this)
      ensures parsed.Some? ==>
                && r == Succeeded
                && old(nextEventId) !in old(events)
                && events == old(events)[old(nextEventId) := EventRowOf(parsed.value)]
    {
      if parsed.None? {
        return Failed;
      }
      var id := nextEventId;
      events := events[id := EventRowOf(parsed.value)];
      nextEventId := id + 1;
      r := Succeeded;
    }

    /** `updateEvent`: overwrite an existing row; a missing id or row fails. */
    method UpdateEvent(parsed: Option<EventForm>) returns (r: ActionState)
      requires Valid()
      modifies this`events
      ensures Valid()
      ensures parsed.None? || parsed.value.id.None? || parsed.value.id.value !in old(events) ==>
                r == Failed && unchanged(this)
      ensures parsed.Some? && parsed.value.id.Some? && parsed.value.id.value in old(events) ==>
                r == Succeeded && events == old(events)[parsed.value.id.value := EventRowOf(parsed.value)]
    {
      if parsed.None? || parsed.value.id.None? || parsed.value.id.value !in events {
        return Failed;
      }
      events := events[parsed.value.id.value := EventRowOf(parsed.value)];
      r := Succeeded;
    }

    /** `deleteEvent`: `id` is `parseInt` of the form field (None for NaN). */
    method DeleteEvent(id: Option<int>) returns (r: ActionState)
      requires Valid()
      modifies this`events
      ensures Valid()
      ensures id.None? || id.value !in old(events) ==> r == Failed && unchanged(this)
      ensures id.Some? && id.value in old(events) ==> r == Succeeded && events == old(events) - {id.value}
    {
      if id.None? || id.value !in events {
        return Failed;
      }
      events := events - {id.value};
      r := Succeeded;
    }

    // -------------------------------------------------------------------
    // Announcement

    /** `createAnnouncement`: a new row under a fresh id; a missing or zero class id makes it global. */
    method CreateAnnouncement(parsed: Option<AnnouncementForm>) returns (r: ActionState)
      requires Valid()
      modifies this`announcements, this`nextAnnouncementId
      ensures Valid()
      ensures parsed.None? ==> r == Failed && unchanged(this)
      ensures parsed.Some? ==>
                && r == Succeeded
                && old(nextAnnouncementId) !in old(announcements)
                && announcements == old(announcements)[old(nextAnnouncementId) := AnnouncementRowOf(parsed.value)]
    {
      if parsed.None? {
        return Failed;
      }
      var id := nextAnnouncementId;
      announcements := announcements[id := AnnouncementRowOf(parsed.value)];
      nextAnnouncementId := id + 1;
      r := Succeeded;
    }

    /** `updateAnnouncement`: overwrite an existing row; a missing id or row fails. */
    method UpdateAnnouncement(parsed: Option<AnnouncementForm>) returns (r: ActionState)
      requires Valid()
      modifies this`announcements
      ensures Valid()
      ensures parsed.None? || parsed.value.id.None? || parsed.value.id.value !in old(announcements) ==>
                r == Failed && unchanged(this)
      ensures parsed.Some? && parsed.value.id.Some? && parsed.value.id.value in old(announcements) ==>
                r == Succeeded && announcements == old(announcements)[parsed.value.id.value := AnnouncementRowOf(parsed.value)]
    {
      if parsed.None? || parsed.value.id.None? || parsed.value.id.value !in announcements {
        return Failed;
      }
      announcements := announcements[parsed.value.id.value := AnnouncementRowOf(parsed.value)];
      r := Succeeded;
    }

    /** `deleteAnnouncement`: `id` is `parseInt` of the form field (None for NaN). */
    method DeleteAnnouncement(id: Option<int>) returns (r: ActionState)
      requires Valid()
      modifies this`announcements
      ensures Valid()
      ensures id.None? || id.value !in old(announcements) ==> r == Failed && unchanged(this)
      ensures id.Some? && id.value in old(announcements) ==>
                r == Succeeded && announcements == old(announcements) - {id.value}
    {
      if id.None? || id.value !in announcements {
        return Failed;
      }
      announcements := announcements - {id.value};
      r := Succeeded;
    }
  }
}

=== FILE: middleware.dfy ===
/**
 * The access-control decision of the request middleware.
 *
 * Whether a route pattern matches the request is decided by the routing
 * library, and the route-to-roles table is static configuration; both come
 * in here as one `Route` per configured entry, in configuration order.
 */
module Middleware {
  import opened Wrappers

  const SignInPath := "/sign-in"
  /** The role assumed when the session carries no (or an empty) role claim. */
  const FallbackRole := "admin"

  /** One configured route: whether its pattern matches this request, and the roles it admits. */
  datatype Route = Route(matches: bool, allowedRoles: seq<string>)

  /** What the middleware does with a request: let it through, or redirect it. */
  datatype Response = Next | Redirect(target: string)

  /** The caller's `userId` is truthy. */
  predicate Authenticated(userId: Option<string>) {
    userId.Some? && userId.value != ""
  }

  /** The role claim, with `|| "admin"` applied. */
  function RoleOf(claim: Option<string>): (role: string)
    ensures role != ""
    ensures claim.Some? && claim.value != "" ==> role == claim.value
    ensures claim.None? || claim.value == "" ==> role == FallbackRole
  {
    if claim.Some? && claim.value != "" then claim.value else FallbackRole
  }

  /** The dashboard of a role, `/<role>`. */
  function RoleHome(role: string): string {
    "/" + role
  }

  /** Route `r` matches the request and does not admit `role`. */
  predicate Denies(r: Route, role: string) {
    r.matches && role !in r.allowedRoles
  }

  /** `matchers.some(matcher(req))`: some configured route matches. */
  predicate AnyMatch(routes: seq<Route>) {
    exists i :: 0 <= i < |routes| && routes[i].matches
  }

  /**
   * The `for … of` loop over the matchers: the first matching route that
   * does not admit the role ends the request with a redirect home; when the
   * loop runs out the request goes through.
   */
  function CheckAccess(routes: seq<Route>, role: string): (r: Response)
    ensures r == Next || r == Redirect(RoleHome(role))
    ensures r.Redirect? <==> exists i :: 0 <= i < |routes| && Denies(routes[i], role)
  {
    if routes == [] then Next
    else if Denies(routes[0], role) then Redirect(RoleHome(role))
    else
      var rest := CheckAccess(routes[1..], role);
      assert forall i :: 1 <= i < |routes| ==> routes[i] == routes[1..][i - 1];
      rest
  }

  /** The middleware's decision for one request. */
  function Handle(userId: Option<string>, claim: Option<string>, path: string, routes: seq<Route>): (r: Response)
    ensures r.Redirect? ==> r.target == SignInPath || r.target == RoleHome(RoleOf(claim))
    ensures !Authenticated(userId) && r.Redirect? ==> r.target == SignInPath
  {
    var role := RoleOf(claim);
    if Authenticated(userId) && path == SignInPath then
      Redirect(RoleHome(role))
    else if !Authenticated(userId) && AnyMatch(routes) then
      Redirect(SignInPath)
    else if Authenticated(userId) then
      CheckAccess(routes, role)
    else
      Next
  }

  /** An authenticated caller on the sign-in page is sent home, whatever the routes say. */
  lemma SignedInLeavesSignIn(userId: Option<string>, claim: Option<string>, routes: seq<Route>)
    requires Authenticated(userId)
    ensures Handle(userId, claim, SignInPath, routes) == Redirect(RoleHome(RoleOf(claim)))
  {
  }

  /** An unauthenticated caller is sent to sign in exactly when some route matches, and passes otherwise. */
  lemma AnonymousCaller(userId: Option<string>, claim: Option<string>, path: string, routes: seq<Route>)
    requires !Authenticated(userId)
    ensures AnyMatch(routes) ==> Handle(userId, claim, path, routes) == Redirect(SignInPath)
    ensures !AnyMatch(routes) ==> Handle(userId, claim, path, routes) == Next
  {
  }

  /**
   * Off the sign-in page, an authenticated caller is redirected home exactly
   * when some matching route does not admit their role, and passes otherwise.
   */
  lemma AuthenticatedCaller(userId: Option<string>, claim: Option<string>, path: string, routes: seq<Route>)
    requires Authenticated(userId) && path != SignInPath
    ensures (exists i :: 0 <= i < |routes| && Denies(routes[i], RoleOf(claim))) ==>
              Handle(userId, claim, path, routes) == Redirect(RoleHome(RoleOf(claim)))
    ensures (forall i :: 0 <= i < |routes| && routes[i].matches ==> RoleOf(claim) in routes[i].allowedRoles) ==>
              Handle(userId, claim, path, routes) == Next
  {
  }

  /** A caller without a role claim is treated exactly like an admin. */
  lemma MissingClaimActsAsAdmin(userId: Option<string>, path: string, routes: seq<Route>)
    ensures Handle(userId, None, path, routes) == Handle(userId, Some(FallbackRole), path, routes)
    ensures Handle(userId, Some(""), path, routes) == Handle(userId, Some(FallbackRole), path, routes)
  {
  }

  /**
   * A redirect never sends the caller back to the path they asked for,
   * unless that path is the sign-in page or the caller's own home.
   */
  lemma RedirectLeavesPath(userId: Option<string>, claim: Option<string>, path: string, routes: seq<Route>)
    requires path != SignInPath && path != RoleHome(RoleOf(claim))
    ensures Handle(userId, claim, path, routes).Redirect? ==> Handle(userId, claim, path, routes).target != path
  {
  }

  /**
   * The exception: a signed-in student whose own home `/student` is matched
   * by a route admitting only admins is redirected to `/student` itself, so
   * every request for that page redirects to it again.
   */
  lemma HomeDeniedRedirectsToItself()
    ensures Handle(Some("u"), Some("student"), "/student", [Route(true, ["admin"])]) == Redirect("/student")
  {
    assert "student" !in ["admin"];
  }

  /**
   * The other exception: a signed-out request for the sign-in page that
   * some configured route matches is redirected to the sign-in page again.
   */
  lemma SignInMatchedRedirectsToItself()
    ensures Handle(None, None, SignInPath, [Route(true, ["admin"])]) == Redirect(SignInPath)
  {
    assert AnyMatch([Route(true, ["admin"])]) by {
      assert [Route(true, ["admin"])][0].matches;
    }
  }

  /** Some route denies `role`, stated without positions. */
  lemma DenialByMembership(routes: seq<Route>, role: string)
    ensures (exists i :: 0 <= i < |routes| && Denies(routes[i], role)) <==> (exists r :: r in routes && Denies(r, role))
  {
  }

  /**
   * The decision does not depend on the order of the configured routes:
   * every redirect inside the loop has the same target.
   */
  lemma RouteOrderIrrelevant(userId: Option<string>, claim: Option<string>, path: string,
                             routes: seq<Route>, routes': seq<Route>)
    requires multiset(routes) == multiset(routes')
    ensures Handle(userId, claim, path, routes) == Handle(userId, claim, path, routes')
  {
    var role := RoleOf(claim);
    DenialByMembership(routes, role);
    DenialByMembership(routes', role);
    forall r
      ensures r in routes <==> r in routes'
    {
      assert r in routes <==> r in multiset(routes);
      assert r in routes' <==> r in multiset(routes');
    }
    if AnyMatch(routes) {
      var i :| 0 <= i < |routes| && routes[i].matches;
      assert routes[i] in routes';
      var j :| 0 <= j < |routes'| && routes'[j] == routes[i];
    }
    if AnyMatch(routes') {
      var i :| 0 <= i < |routes'| && routes'[i].matches;
      assert routes'[i] in routes;
      var j :| 0 <= j < |routes| && routes[j] == routes'[i];
    }
  }
}

=== FILE: query.dfy ===
/**
 * The URL query string of a list page, as the table controls see it:
 * a finite map from parameter name to value (`URLSearchParams`).
 */
module Query {
  import opened Wrappers

  type Params = map<string, string>

  const SortKey := "sort"
  const OrderKey := "order"

  /** `params.get(key)`: the value, or None (`null`) when the key is absent. */
  function Lookup(q: Params, key: string): (r: Option<string>)
    ensures r.Some? <==> key in q
    ensures r.Some? ==> r.value == q[key]
  {
    if key in q then Some(q[key]) else None
  }

  /** Two queries agree on every parameter except the listed ones. */
  ghost predicate AgreeExcept(q: Params, q': Params, keys: set<string>) {
    forall k :: k !in keys ==> Lookup(q', k) == Lookup(q, k)
  }
}

=== FILE: records.dfy ===
/**
 * The rows the action layer writes, the validated form records it reads,
 * the identity-provider accounts it mirrors, and the field coercions it
 * applies on the way from one to the other.
 */
module Records {
  import opened Wrappers

  /** A date or time, kept abstract. */
  type Instant = int

  datatype Sex = Male | Female

  /** The roles the action layer writes into an account's public metadata. */
  const TeacherRole := "teacher"
  const StudentRole := "student"
  const ParentRole := "parent"

  /** An identity-provider account, as far as the action layer sets it. */
  datatype Account = Account(username: string, password: Option<string>,
                             firstName: string, lastName: string, role: string)

  /** A form field that arrives either as a boolean or as text (`present`). */
  datatype FormValue = Flag(b: bool) | Text(s: string)

  // ---------------------------------------------------------------------
  // Validated form records: what `schema.parse` yields. A field the schema
  // may leave out is an Option (None is `undefined`). A teacher's subject
  // ids are strings the action reads with `parseInt`; each is kept here as
  // that reading (None is NaN), for the action to convert with ParsedIds.

  datatype SubjectForm = SubjectForm(id: Option<int>, name: string, teachers: seq<string>)

  datatype TeacherForm = TeacherForm(
    id: Option<string>, username: string, password: Option<string>,
    name: string, surname: string, email: Option<string>, phone: Option<string>,
    address: string, img: Option<string>, bloodType: string, sex: Sex, birthday: Instant,
    subjects: Option<seq<Option<int>>>)

  datatype StudentForm = StudentForm(
    id: Option<string>, username: string, password: Option<string>,
    name: string, surname: string, email: Option<string>, phone: Option<string>,
    address: string, img: Option<string>, bloodType: string, sex: Sex, birthday: Instant,
    gradeId: int, classId: int, parentId: string)

  datatype ParentForm = ParentForm(
    id: Option<string>, username: string, password: Option<string>,
    name: string, surname: string, email: Option<string>, phone: string, address: string)

  datatype ResultForm = ResultForm(id: Option<int>, score: int, examId: Option<int>,
                                   assignmentId: Option<int>, studentId: string)

  datatype AttendanceForm = AttendanceForm(id: Option<int>, date: Instant, present: FormValue,
                                           studentId: string, lessonId: int)

  datatype EventForm = EventForm(id: Option<int>, title: string, description: string,
                                 startTime: Instant, endTime: Instant, classId: Option<int>)

  datatype AnnouncementForm = AnnouncementForm(id: Option<int>, title: string, description: string,
                                               date: Instant, classId: Option<int>)

  // ---------------------------------------------------------------------
  // Rows. A nullable column is an Option (None is `null`).

  datatype ClassRow = ClassRow(name: string, capacity: int, gradeId: int)

  datatype SubjectRow = SubjectRow(name: string)

  datatype TeacherRow = TeacherRow(
    username: string, password: Option<string>, name: string, surname: string,
    email: Option<string>, phone: Option<string>, address: string, img: Option<string>,
    bloodType: string, sex: Sex, birthday: Instant)

  datatype StudentRow = StudentRow(
    username: string, password: Option<string>, name: string, surname: string,
    email: Option<string>, phone: Option<string>, address: string, img: Option<string>,
    bloodType: string, sex: Sex, birthday: Instant,
    gradeId: int, classId: int, parentId: string)

  datatype ParentRow = ParentRow(username: string, name: string, surname: string,
                                 email: Option<string>, phone: string, address: string)

  datatype ResultRow = ResultRow(score: int, examId: Option<int>, assignmentId: Option<int>, studentId: string)

  datatype AttendanceRow = AttendanceRow(date: Instant, present: bool, studentId: string, lessonId: int)

  datatype EventRow = EventRow(title: string, description: string, startTime: Instant,
                               endTime: Instant, classId: Option<int>)

  datatype AnnouncementRow = AnnouncementRow(title: string, description: string, date: Instant,
                                             classId: Option<int>)

  // ---------------------------------------------------------------------
  // Coercions.

  /** `v || null` on an optional text field: absent and empty both become null. */
  function NonEmpty(v: Option<string>): (r: Option<string>)
    ensures r.Some? <==> v.Some? && v.value != ""
    ensures r.Some? ==> r == v
  {
    if v.Some? && v.value != "" then v else None
  }

  /** `v || null` on an optional numeric id: absent and 0 both become null. */
  function NonZero(v: Option<int>): (r: Option<int>)
    ensures r.Some? <==> v.Some? && v.value != 0
    ensures r.Some? ==> r == v
  {
    if v.Some? && v.value != 0 then v else None
  }

  /**
   * `ids.map(parseInt)`, each id already read by `parseInt` (None is NaN):
   * every number in order, or None when any id is NaN.
   */
  function ParsedIds(ids: seq<Option<int>>): (r: Option<seq<int>>)
    ensures r.None? <==> exists i :: 0 <= i < |ids| && ids[i].None?
    ensures r.Some? ==> |r.value| == |ids| && forall i :: 0 <= i < |ids| ==> ids[i] == Some(r.value[i])
  {
    if |ids| == 0 then Some([])
    else if ids[0].None? then None
    else match ParsedIds(ids[1..]) {
      case None =>
        assert exists i :: 1 <= i < |ids| && ids[i].None? by {
          var j :| 0 <= j < |ids[1..]| && ids[1..][j].None?;
          assert ids[j + 1].None?;
        }
        None
      case Some(rest) => Some([ids[0].value] + rest)
    }
  }

  /** A teacher form whose subject ids include one `parseInt` reads as NaN. */
  predicate NaNSubject(f: TeacherForm) {
    f.subjects.Some? && ParsedIds(f.subjects.value).None?
  }

  /**
   * `...(password !== "" && { password })`: the password is written only when
   * it is given and non-empty (an absent one spreads `undefined`, which the
   * database client and the identity provider both ignore).
   */
  function PasswordPatch(current: Option<string>, given: Option<string>): (r: Option<string>)
    ensures given.Some? && given.value != "" ==> r == given
    ensures given.None? || given.value == "" ==> r == current
  {
    if given.Some? && given.value != "" then given else current
  }

  /**
   * ASCII lower-casing of one character: the result is never a capital, is
   * the same letter in either case, and anything but a capital is unchanged.
   */
  function LowerChar(c: char): (r: char)
    ensures !('A' <= r <= 'Z')
    ensures EitherCase(c, r)
    ensures 'a' <= r <= 'z' <==> 'A' <= c <= 'Z' || 'a' <= c <= 'z'
    ensures !('A' <= c <= 'Z') ==> r == c
  {
    if 'A' <= c <= 'Z' then (c as int + 32) as char else c
  }

  /** `s.toLowerCase()`, on ASCII letters. */
  function Lower(s: string): (r: string)
    ensures |r| == |s|
    ensures forall i :: 0 <= i < |r| ==> !('A' <= r[i] <= 'Z') && EitherCase(s[i], r[i])
    ensures forall i :: 0 <= i < |s| && !('A' <= s[i] <= 'Z') ==> r[i] == s[i]
    ensures forall i :: 0 <= i < |s| && 'A' <= s[i] <= 'Z' ==> r[i] as int == s[i] as int + 32
  {
    seq(|s|, i requires 0 <= i < |s| => LowerChar(s[i]))
  }

  /** `String(v)`. */
  function Stringify(v: FormValue): string {
    match v
    case Flag(b) => if b then "true" else "false"
    case Text(s) => s
  }

  /** Lower-casing twice is lower-casing once. */
  lemma LowerIdempotent(s: string)
    ensures Lower(Lower(s)) == Lower(s)
  {
    var l := Lower(s);
    assert forall i :: 0 <= i < |l| ==> LowerChar(l[i]) == l[i];
  }

  /** The `present` coercion of the attendance actions. */
  predicate IsPresent(v: FormValue) {
    v == Flag(true) || v == Text("true") || Lower(Stringify(v)) == "true"
  }

  /** `c` is the letter `lower` in either case. */
  predicate EitherCase(c: char, lower: char) {
    c == lower || c as int == lower as int - 32
  }

  /** `present` holds exactly for the flag `true` and for the text "true" in any mix of cases. */
  lemma PresentIff(v: FormValue)
    ensures IsPresent(v) <==>
              v == Flag(true) ||
              (v.Text? && |v.s| == 4 && EitherCase(v.s[0], 't') && EitherCase(v.s[1], 'r') &&
               EitherCase(v.s[2], 'u') && EitherCase(v.s[3], 'e'))
  {
    if v.Text? && |v.s| == 4 {
      var l := Lower(v.s);
      assert l == "true" <==> l[0] == 't' && l[1] == 'r' && l[2] == 'u' && l[3] == 'e';
    }
  }

  // ---------------------------------------------------------------------
  // What the actions write.

  /** Optional contact fields of a row hold no empty strings. */
  predicate ContactsNormalised(email: Option<string>, phone: Option<string>, img: Option<string>) {
    email != Some("") && phone != Some("") && img != Some("")
  }

  /** The account `createUser` makes for a new user: the form's credentials and names, and `role`. */
  function NewAccount(username: string, password: Option<string>, name: string, surname: string,
                      role: string): (a: Account)
    ensures a.role == role && a.username == username && a.password == password
    ensures a.firstName == name && a.lastName == surname
  {
    Account(username, password, name, surname, role)
  }

  /** `updateUser`: new username and names, the password only if non-empty; the role is kept. */
  function UpdatedAccount(a: Account, username: string, password: Option<string>,
                          name: string, surname: string): (r: Account)
    ensures r.role == a.role
    ensures r.username == username && r.firstName == name && r.lastName == surname
    ensures r.password == PasswordPatch(a.password, password)
  {
    a.(username := username, password := PasswordPatch(a.password, password),
       firstName := name, lastName := surname)
  }

  /** The teacher row written from a form; `password` is the stored password. */
  function TeacherRowOf(f: TeacherForm, password: Option<string>): (row: TeacherRow)
    ensures ContactsNormalised(row.email, row.phone, row.img)
    ensures row.email == NonEmpty(f.email) && row.phone == NonEmpty(f.phone) && row.img == NonEmpty(f.img)
    ensures row.username == f.username && row.name == f.name && row.surname == f.surname
    ensures row.address == f.address && row.bloodType == f.bloodType && row.sex == f.sex && row.birthday == f.birthday
    ensures row.password == password
  {
    TeacherRow(f.username, password, f.name, f.surname, NonEmpty(f.email), NonEmpty(f.phone),
               f.address, NonEmpty(f.img), f.bloodType, f.sex, f.birthday)
  }

  /** The student row written from a form; `password` is the stored password. */
  function StudentRowOf(f: StudentForm, password: Option<string>): (row: StudentRow)
    ensures ContactsNormalised(row.email, row.phone, row.img)
    ensures row.email == NonEmpty(f.email) && row.phone == NonEmpty(f.phone) && row.img == NonEmpty(f.img)
    ensures row.username == f.username && row.name == f.name && row.surname == f.surname
    ensures row.address == f.address && row.bloodType == f.bloodType && row.sex == f.sex && row.birthday == f.birthday
    ensures row.classId == f.classId && row.gradeId == f.gradeId && row.parentId == f.parentId
    ensures row.password == password
  {
    StudentRow(f.username, password, f.name, f.surname, NonEmpty(f.email), NonEmpty(f.phone),
               f.address, NonEmpty(f.img), f.bloodType, f.sex, f.birthday,
               f.gradeId, f.classId, f.parentId)
  }

  /** The parent row written from a form: email normalised, phone stored as given. */
  function ParentRowOf(f: ParentForm): (row: ParentRow)
    ensures row.email != Some("") && row.email == NonEmpty(f.email)
    ensures row.phone == f.phone
    ensures row.username == f.username && row.name == f.name && row.surname == f.surname && row.address == f.address
  {
    ParentRow(f.username, f.name, f.surname, NonEmpty(f.email), f.phone, f.address)
  }

  /** The result row written from a form: a missing or zero exam / assignment id becomes null. */
  function ResultRowOf(f: ResultForm): (row: ResultRow)
    ensures row.examId != Some(0) && row.assignmentId != Some(0)
    ensures row.examId == NonZero(f.examId) && row.assignmentId == NonZero(f.assignmentId)
    ensures row.score == f.score && row.studentId == f.studentId
  {
    ResultRow(f.score, NonZero(f.examId), NonZero(f.assignmentId), f.studentId)
  }

  /** The attendance row written from a form, with `present` coerced to a boolean. */
  function AttendanceRowOf(f: AttendanceForm): (row: AttendanceRow)
    ensures row.present <==> IsPresent(f.present)
    ensures row.studentId == f.studentId && row.lessonId == f.lessonId && row.date == f.date
  {
    AttendanceRow(f.date, IsPresent(f.present), f.studentId, f.lessonId)
  }

  /** The event row written from a form: a missing or zero class id makes the event global. */
  function EventRowOf(f: EventForm): (row: EventRow)
    ensures row.classId != Some(0) && row.classId == NonZero(f.classId)
    ensures row.title == f.title && row.description == f.description
    ensures row.startTime == f.startTime && row.endTime == f.endTime
  {
    EventRow(f.title, f.description, f.startTime, f.endTime, NonZero(f.classId))
  }

  /** The announcement row written from a form: a missing or zero class id makes it global. */
  function AnnouncementRowOf(f: AnnouncementForm): (row: AnnouncementRow)
    ensures row.classId != Some(0) && row.classId == NonZero(f.classId)
    ensures row.title == f.title && row.description == f.description && row.date == f.date
  {
    AnnouncementRow(f.title, f.description, f.date, NonZero(f.classId))
  }
}

=== FILE: relations.dfy ===
/**
 * Two relations the action layer reasons about: the many-to-many link
 * between teachers and subjects (one implicit join table, written from
 * either side with `connect` or `set`), and the number of students in a
 * class, which the capacity gate compares with the class's capacity.
 */
module Relations {
  import opened Records

  /** One row of the teacher-subject join table. */
  datatype Link = Link(teacher: string, subject: int)

  /** The subjects linked to teacher `t`. */
  function SubjectsOf(links: set<Link>, t: string): set<int> {
    set l | l in links && l.teacher == t :: l.subject
  }

  /** The teachers linked to subject `s`. */
  function TeachersOf(links: set<Link>, s: int): set<string> {
    set l | l in links && l.subject == s :: l.teacher
  }

  /** The elements of a list of ids. */
  function Elements<T>(ids: seq<T>): set<T> {
    set x | x in ids
  }

  /** `subjects: { connect: ids }` on teacher `t`: add links, keep the old ones. */
  function ConnectSubjects(links: set<Link>, t: string, ids: seq<int>): (r: set<Link>)
    ensures SubjectsOf(r, t) == SubjectsOf(links, t) + Elements(ids)
    ensures forall t' :: t' != t ==> SubjectsOf(r, t') == SubjectsOf(links, t')
  {
    var added := set s | s in ids :: Link(t, s);
    assert forall t' :: t' != t ==> SubjectsOf(links + added, t') == SubjectsOf(links, t') by {
      forall t' | t' != t
        ensures SubjectsOf(links + added, t') == SubjectsOf(links, t')
      {
      }
    }
    assert SubjectsOf(links + added, t) == SubjectsOf(links, t) + Elements(ids) by {
      forall s | s in Elements(ids)
        ensures s in SubjectsOf(links + added, t)
      {
        assert Link(t, s) in added;
      }
    }
    links + added
  }

  /** `subjects: { set: ids }` on teacher `t`: the teacher's links become exactly `ids`. */
  function SetSubjects(links: set<Link>, t: string, ids: seq<int>): (r: set<Link>)
    ensures SubjectsOf(r, t) == Elements(ids)
    ensures forall t' :: t' != t ==> SubjectsOf(r, t') == SubjectsOf(links, t')
  {
    var kept := set l | l in links && l.teacher != t;
    var added := set s | s in ids :: Link(t, s);
    assert forall t' :: t' != t ==> SubjectsOf(kept + added, t') == SubjectsOf(links, t') by {
      forall t' | t' != t
        ensures SubjectsOf(kept + added, t') == SubjectsOf(links, t')
      {
        forall s | s in SubjectsOf(links, t')
          ensures s in SubjectsOf(kept + added, t')
        {
          var l :| l in links && l.teacher == t' && l.subject == s;
          assert l in kept;
        }
      }
    }
    assert SubjectsOf(kept + added, t) == Elements(ids) by {
      forall s | s in Elements(ids)
        ensures s in SubjectsOf(kept + added, t)
      {
        assert Link(t, s) in added;
      }
    }
    kept + added
  }

  /** `teachers: { connect: ids }` on subject `s`: add links, keep the old ones. */
  function ConnectTeachers(links: set<Link>, s: int, ids: seq<string>): (r: set<Link>)
    ensures TeachersOf(r, s) == TeachersOf(links, s) + Elements(ids)
    ensures forall s' :: s' != s ==> TeachersOf(r, s') == TeachersOf(links, s')
  {
    var added := set t | t in ids :: Link(t, s);
    assert forall s' :: s' != s ==> TeachersOf(links + added, s') == TeachersOf(links, s') by {
      forall s' | s' != s
        ensures TeachersOf(links + added, s') == TeachersOf(links, s')
      {
      }
    }
    assert TeachersOf(links + added, s) == TeachersOf(links, s) + Elements(ids) by {
      forall t | t in Elements(ids)
        ensures t in TeachersOf(links + added, s)
      {
        assert Link(t, s) in added;
      }
    }
    links + added
  }

  /** `teachers: { set: ids }` on subject `s`: the subject's links become exactly `ids`. */
  function SetTeachers(links: set<Link>, s: int, ids: seq<string>): (r: set<Link>)
    ensures TeachersOf(r, s) == Elements(ids)
    ensures forall s' :: s' != s ==> TeachersOf(r, s') == TeachersOf(links, s')
  {
    var kept := set l | l in links && l.subject != s;
    var added := set t | t in ids :: Link(t, s);
    assert forall s' :: s' != s ==> TeachersOf(kept + added, s') == TeachersOf(links, s') by {
      forall s' | s' != s
        ensures TeachersOf(kept + added, s') == TeachersOf(links, s')
      {
        forall t | t in TeachersOf(links, s')
          ensures t in TeachersOf(kept + added, s')
        {
          var l :| l in links && l.subject == s' && l.teacher == t;
          assert l in kept;
        }
      }
    }
    assert TeachersOf(kept + added, s) == Elements(ids) by {
      forall t | t in Elements(ids)
        ensures t in TeachersOf(kept + added, s)
      {
        assert Link(t, s) in added;
      }
    }
    kept + added
  }

  /** Deleting teacher `t` removes its join rows. */
  function DropTeacher(links: set<Link>, t: string): (r: set<Link>)
    ensures r <= links
    ensures forall l :: l in r ==> l.teacher != t
    ensures forall l :: l in links && l.teacher != t ==> l in r
  {
    set l | l in links && l.teacher != t
  }

  /** Deleting subject `s` removes its join rows. */
  function DropSubject(links: set<Link>, s: int): (r: set<Link>)
    ensures r <= links
    ensures forall l :: l in r ==> l.subject != s
    ensures forall l :: l in links && l.subject != s ==> l in r
  {
    set l | l in links && l.subject != s
  }

  /** An update with {2,3} over prior links {1,2} leaves exactly {2,3}. */
  lemma ReplaceExample(t: string)
    ensures SubjectsOf(SetSubjects({Link(t, 1), Link(t, 2)}, t, [2, 3]), t) == {2, 3}
    ensures SubjectsOf(ConnectSubjects({Link(t, 1), Link(t, 2)}, t, [2, 3]), t) == {1, 2, 3}
  {
    assert Elements([2, 3]) == {2, 3} by {
      assert 2 in [2, 3] && 3 in [2, 3];
    }
    assert SubjectsOf({Link(t, 1), Link(t, 2)}, t) == {1, 2} by {
      assert Link(t, 1) in {Link(t, 1), Link(t, 2)};
      assert Link(t, 2) in {Link(t, 1), Link(t, 2)};
    }
  }

  // ---------------------------------------------------------------------
  // Class sizes and the capacity gate.

  /** The number of students whose class is `c` (`_count.students`). */
  function ClassSize(students: map<string, StudentRow>, c: int): nat {
    |set k | k in students && students[k].classId == c|
  }

  /** Every existing class holds at most its capacity. */
  ghost predicate WithinCapacity(classes: map<int, ClassRow>, students: map<string, StudentRow>) {
    forall c :: c in classes ==> ClassSize(students, c) <= classes[c].capacity
  }

  /** The capacity gate: the class exists and its student count equals its capacity. */
  predicate ClassFull(classes: map<int, ClassRow>, students: map<string, StudentRow>, c: int) {
    c in classes && classes[c].capacity == ClassSize(students, c)
  }

  /** Inserting a student under a fresh key grows its own class by one and no other. */
  lemma ClassSizeInsert(students: map<string, StudentRow>, k: string, row: StudentRow, c: int)
    requires k !in students
    ensures ClassSize(students[k := row], c) == ClassSize(students, c) + (if row.classId == c then 1 else 0)
  {
    var m := students[k := row];
    var before := set j | j in students && students[j].classId == c;
    var after := set j | j in m && m[j].classId == c;
    if row.classId == c {
      assert after == before + {k};
    } else {
      assert after == before;
    }
  }

  /** Removing or replacing a student never grows a class it does not join. */
  lemma ClassSizeReplace(students: map<string, StudentRow>, k: string, row: StudentRow, c: int)
    requires k in students
    ensures ClassSize(students - {k}, c) <= ClassSize(students, c)
    ensures row.classId != c ==> ClassSize(students[k := row], c) <= ClassSize(students, c)
  {
    var before := set j | j in students && students[j].classId == c;
    var m := students - {k};
    var removed := set j | j in m && m[j].classId == c;
    assert removed <= before;
    SubsetCard(removed, before);
    if row.classId != c {
      var m' := students[k := row];
      var replaced := set j | j in m' && m'[j].classId == c;
      assert replaced <= before;
      SubsetCard(replaced, before);
    }
  }

  /** Moving a student from another class into class `c` grows `c` by exactly one. */
  lemma ClassSizeMoveIn(students: map<string, StudentRow>, k: string, row: StudentRow, c: int)
    requires k in students && students[k].classId != c && row.classId == c
    ensures ClassSize(students[k := row], c) == ClassSize(students, c) + 1
  {
    var m := students[k := row];
    var before := set j | j in students && students[j].classId == c;
    var after := set j | j in m && m[j].classId == c;
    assert after == before + {k};
  }

  /**
   * The student update has no capacity gate: moving a student into a class
   * that is already full leaves that class over capacity.
   */
  lemma UpdateCanOverfill(classes: map<int, ClassRow>, students: map<string, StudentRow>,
                           k: string, row: StudentRow)
    requires ClassFull(classes, students, row.classId)
    requires k in students && students[k].classId != row.classId
    ensures !WithinCapacity(classes, students[k := row])
  {
    ClassSizeMoveIn(students, k, row, row.classId);
  }

  /** A subset is no larger than its superset. */
  lemma {:induction false} SubsetCard<T>(a: set<T>, b: set<T>)
    requires a <= b
    ensures |a| <= |b|
  {
    if a != {} {
      var x :| x in a;
      SubsetCard(a - {x}, b - {x});
    }
  }

  /**
   * The strict-equality gate is enough to keep capacities, provided they
   * held before: a class below capacity can take one more student.
   */
  lemma GateKeepsCapacity(classes: map<int, ClassRow>, students: map<string, StudentRow>,
                           k: string, row: StudentRow)
    requires WithinCapacity(classes, students)
    requires k !in students
    requires !ClassFull(classes, students, row.classId)
    ensures WithinCapacity(classes, students[k := row])
  {
    forall c | c in classes
      ensures ClassSize(students[k := row], c) <= classes[c].capacity
    {
      ClassSizeInsert(students, k, row, c);
    }
  }

  /** Deleting a student keeps every capacity that held before. */
  lemma RemovalKeepsCapacity(classes: map<int, ClassRow>, students: map<string, StudentRow>, k: string)
    requires WithinCapacity(classes, students)
    requires k in students
    ensures WithinCapacity(classes, students - {k})
  {
    forall c | c in classes
      ensures ClassSize(students - {k}, c) <= classes[c].capacity
    {
      ClassSizeReplace(students, k, students[k], c);
    }
  }
}

=== FILE: seed.dfy ===
/**
 * The seed script's fixture: how many rows of each kind it inserts, and the
 * modular index formulas that spread foreign keys over those fixed id
 * ranges. Row `j` (0-based) of each sequence below is the row inserted
 * j-th, so its autoincrement id is j + 1. Teachers and students have string
 * ids in the database; here teacher `t` is `teacher<t>` (teacher 1 being the
 * one with the identity-provider id), parent `p` is `parentId<p>` and
 * student `s` is `student<s>`. Clock readings and the random lesson day are
 * not modelled; the random capacity is the draw `d` in 0..5 of
 * `Math.floor(Math.random() * 6)`.
 */
module Seed {
  import opened Wrappers

  const GradeCount := 6
  const ClassCount := 6
  const SubjectCount := 10
  const TeacherCount := 15
  const LessonCount := 30
  const ParentCount := 25
  const StudentCount := 50
  const ExamCount := 10
  const AssignmentCount := 10
  const ResultCount := 10
  const AttendanceCount := 10
  const EventCount := 5
  const AnnouncementCount := 5

  // ---------------------------------------------------------------------
  // Index formulas

  /** Class `k` belongs to grade `k`. */
  function ClassGrade(k: int): (g: int)
    requires 1 <= k <= ClassCount
    ensures 1 <= g <= GradeCount && g == k
  {
    k
  }

  /** `Math.floor(Math.random() * (20 - 15 + 1)) + 15`, with the random draw `d`. */
  function Capacity(d: int): (c: int)
    requires 0 <= d <= 5
    ensures 15 <= c <= 20
  {
    d + 15
  }

  /** Supervisors set after the teachers: classes 1 and 2 get teacher 1, class k > 2 gets teacher k - 1. */
  function Supervisor(k: int): (t: int)
    requires 1 <= k <= ClassCount
    ensures 1 <= t <= TeacherCount
    ensures k <= 2 ==> t == 1
    ensures k > 2 ==> t == k - 1
  {
    if k <= 2 then 1 else k - 1
  }

  /** The subject of teacher i in 2..15: `(i % 10) + 1`. */
  function TeacherSubject(i: int): (s: int)
    requires 2 <= i <= TeacherCount
    ensures 1 <= s <= SubjectCount
  {
    i % 10 + 1
  }

  /** The two classes of teacher i in 2..15: `(i % 6) + 1` and `((i + 1) % 6) + 1`, always distinct. */
  function TeacherClasses(i: int): (cs: set<int>)
    requires 2 <= i <= TeacherCount
    ensures |cs| == 2
    ensures forall c :: c in cs ==> 1 <= c <= ClassCount
  {
    var a, b := i % 6 + 1, (i + 1) % 6 + 1;
    assert a != b;
    assert |{a} + {b}| == 2;
    {a, b}
  }

  /** The subject of lesson i in 16..30. */
  function LessonSubject(i: int): (s: int)
    requires 16 <= i <= LessonCount
    ensures 1 <= s <= SubjectCount
  {
    i % 10 + 1
  }

  /** The class of lesson i in 16..30. */
  function LessonClass(i: int): (c: int)
    requires 16 <= i <= LessonCount
    ensures 1 <= c <= ClassCount
  {
    i % 6 + 1
  }

  /** The teacher of lesson i in 16..30: `((i - 15) % 14) + 2`, never teacher 1. */
  function LessonTeacher(i: int): (t: int)
    requires 16 <= i <= LessonCount
    ensures 2 <= t <= TeacherCount
  {
    (i - 15) % 14 + 2
  }

  /** `Math.ceil(i / 2)` for a natural number. */
  function CeilHalf(i: nat): (c: nat)
    ensures 2 * c - 1 <= i <= 2 * c
  {
    (i + 1) / 2
  }

  /** The parent of student i in 1..50: `Math.ceil(i / 2) % 25 || 25`. */
  function StudentParent(i: int): (p: int)
    requires 1 <= i <= StudentCount
    ensures 1 <= p <= ParentCount
    ensures p == CeilHalf(i)
  {
    var c := CeilHalf(i) % 25;
    if c == 0 then 25 else c
  }

  /** The class of student i: `(i % 6) + 1`. */
  function StudentClass(i: nat): (c: int)
    ensures 1 <= c <= ClassCount
  {
    i % 6 + 1
  }

  /** The grade of student i: `(i % 6) + 1`, the grade of the student's own class. */
  function StudentGrade(i: nat): (g: int)
    ensures 1 <= g <= GradeCount
    ensures g == ClassGrade(StudentClass(i))
  {
    i % 6 + 1
  }

  /** The lesson of exam, assignment and attendance i in 1..10: `(i % 30) + 1`, one of lessons 2..11. */
  function WorkLesson(i: int): (l: int)
    requires 1 <= i <= 10
    ensures 2 <= l <= 11 && l <= LessonCount
  {
    i % 30 + 1
  }

  /** The link of result i in 1..10: exam i for i <= 5, assignment i - 5 otherwise. */
  function ResultTarget(i: int): (t: (Option<int>, Option<int>))
    requires 1 <= i <= ResultCount
    ensures t.0.Some? != t.1.Some?
    ensures t.0.Some? ==> 1 <= t.0.value <= 5 && t.0.value <= ExamCount
    ensures t.1.Some? ==> 1 <= t.1.value <= 5 && t.1.value <= AssignmentCount
  {
    if i <= 5 then (Some(i), None) else (None, Some(i - 5))
  }

  /** The class of event and announcement i in 1..5: `(i % 5) + 1`, one of classes 1..5. */
  function NoticeClass(i: int): (c: int)
    requires 1 <= i <= 5
    ensures 1 <= c <= 5 && c <= ClassCount
  {
    i % 5 + 1
  }

  // ---------------------------------------------------------------------
  // Distribution

  /** Parent p is the parent of exactly students 2p - 1 and 2p. */
  lemma TwoStudentsPerParent(p: int)
    requires 1 <= p <= ParentCount
    ensures (set i | 1 <= i <= StudentCount && StudentParent(i) == p) == {2 * p - 1, 2 * p}
    ensures |set i | 1 <= i <= StudentCount && StudentParent(i) == p| == 2
  {
    var children := set i | 1 <= i <= StudentCount && StudentParent(i) == p;
    forall i | 1 <= i <= StudentCount
      ensures StudentParent(i) == p <==> i == 2 * p - 1 || i == 2 * p
    {
      var c := CeilHalf(i);
    }
    assert children == {2 * p - 1, 2 * p};
  }

  // ---------------------------------------------------------------------
  // The fixture

  datatype ClassSeed = ClassSeed(gradeId: int, capacity: int, supervisor: Option<int>)
  datatype TeacherSeed = TeacherSeed(subjects: set<int>, classes: set<int>)
  datatype LessonSeed = LessonSeed(subjectId: int, classId: int, teacher: int)
  datatype StudentSeed = StudentSeed(parent: int, gradeId: int, classId: int)
  datatype ResultSeed = ResultSeed(student: int, examId: Option<int>, assignmentId: Option<int>)
  datatype AttendanceSeed = AttendanceSeed(student: int, lessonId: int)

  datatype Fixture = Fixture(
    classes: seq<ClassSeed>,
    teachers: seq<TeacherSeed>,
    lessons: seq<LessonSeed>,
    students: seq<StudentSeed>,
    exams: seq<int>,
    assignments: seq<int>,
    results: seq<ResultSeed>,
    attendances: seq<AttendanceSeed>,
    events: seq<int>,
    announcements: seq<int>)

  /** `id` names one of the `count` rows of a table. */
  predicate Names(id: int, count: int) {
    1 <= id <= count
  }

  /** How many of the students are in class `k`. */
  function ClassLoad(students: seq<StudentSeed>, k: int): nat {
    if students == [] then 0
    else ClassLoad(students[..|students| - 1], k) + (if students[|students| - 1].classId == k then 1 else 0)
  }

  /** Every foreign key of the fixture names a row that the script inserted. */
  ghost predicate ForeignKeysResolve(f: Fixture) {
    && (forall j :: 0 <= j < |f.classes| ==>
          Names(f.classes[j].gradeId, GradeCount) &&
          (f.classes[j].supervisor.Some? ==> Names(f.classes[j].supervisor.value, |f.teachers|)))
    && (forall j :: 0 <= j < |f.teachers| ==>
          (forall s :: s in f.teachers[j].subjects ==> Names(s, SubjectCount)) &&
          (forall c :: c in f.teachers[j].classes ==> Names(c, |f.classes|)))
    && (forall j :: 0 <= j < |f.lessons| ==>
          Names(f.lessons[j].subjectId, SubjectCount) && Names(f.lessons[j].classId, |f.classes|) &&
          Names(f.lessons[j].teacher, |f.teachers|))
    && (forall j :: 0 <= j < |f.students| ==>
          Names(f.students[j].parent, ParentCount) && Names(f.students[j].gradeId, GradeCount) &&
          Names(f.students[j].classId, |f.classes|))
    && (forall j :: 0 <= j < |f.exams| ==> Names(f.exams[j], |f.lessons|))
    && (forall j :: 0 <= j < |f.assignments| ==> Names(f.assignments[j], |f.lessons|))
    && (forall j :: 0 <= j < |f.results| ==>
          Names(f.results[j].student, |f.students|) &&
          (f.results[j].examId.Some? ==> Names(f.results[j].examId.value, |f.exams|)) &&
          (f.results[j].assignmentId.Some? ==> Names(f.results[j].assignmentId.value, |f.assignments|)))
    && (forall j :: 0 <= j < |f.attendances| ==>
          Names(f.attendances[j].student, |f.students|) && Names(f.attendances[j].lessonId, |f.lessons|))
    && (forall j :: 0 <= j < |f.events| ==> Names(f.events[j], |f.classes|))
    && (forall j :: 0 <= j < |f.announcements| ==> Names(f.announcements[j], |f.classes|))
  }

  /** Each result is linked to exactly one of an exam and an assignment. */
  ghost predicate ResultsLinkOne(f: Fixture) {
    forall j :: 0 <= j < |f.results| ==> f.results[j].examId.Some? != f.results[j].assignmentId.Some?
  }

  /** Each student's class belongs to the student's grade. */
  ghost predicate StudentsInClassGrade(f: Fixture) {
    forall j :: 0 <= j < |f.students| && Names(f.students[j].classId, |f.classes|) ==>
      f.classes[f.students[j].classId - 1].gradeId == f.students[j].gradeId
  }

  /** No class holds more students than its capacity. */
  ghost predicate FixtureWithinCapacity(f: Fixture) {
    forall k :: 1 <= k <= |f.classes| ==> ClassLoad(f.students, k) <= f.classes[k - 1].capacity
  }

  /** The position of class k's students in the cycle of `(i % 6) + 1`: i is in class k iff i % 6 == Phase(k) % 6. */
  function Phase(k: int): (m: int)
    requires 1 <= k <= ClassCount
    ensures 1 <= m <= 6
  {
    if k == 1 then 6 else k - 1
  }

  /** One more student in the cycle: the count for class k grows exactly when the student lands in k. */
  lemma CycleStep(n: int, k: int)
    requires 1 <= n && 1 <= k <= ClassCount
    ensures StudentClass(n) == k ==> (n + 6 - Phase(k)) / 6 == (n + 5 - Phase(k)) / 6 + 1
    ensures StudentClass(n) != k ==> (n + 6 - Phase(k)) / 6 == (n + 5 - Phase(k)) / 6
  {
    var m := Phase(k);
    var q, r := (n + 5 - m) / 6, (n + 5 - m) % 6;
    assert n + 5 - m == 6 * q + r && 0 <= r < 6;
    assert StudentClass(n) == k <==> r == 5;
    if r == 5 {
      assert n + 6 - m == 6 * (q + 1);
    } else {
      assert n + 6 - m == 6 * q + (r + 1) && r + 1 < 6;
    }
  }

  /** The first n students, in seeding order, spread over the classes in a cycle of six. */
  lemma {:induction false} ClassLoadExact(students: seq<StudentSeed>, k: int)
    requires 1 <= k <= ClassCount
    requires forall j :: 0 <= j < |students| ==> students[j].classId == StudentClass(j + 1)
    ensures ClassLoad(students, k) == (|students| + 6 - Phase(k)) / 6
  {
    var n := |students|;
    if n > 0 {
      var prefix := students[..n - 1];
      ClassLoadExact(prefix, k);
      CycleStep(n, k);
    }
  }

  /** With fifty students, no class receives more than nine. */
  lemma ClassLoadBound(students: seq<StudentSeed>, k: int)
    requires 1 <= k <= ClassCount && |students| == StudentCount
    requires forall j :: 0 <= j < |students| ==> students[j].classId == StudentClass(j + 1)
    ensures ClassLoad(students, k) <= 9
  {
    ClassLoadExact(students, k);
  }
}

=== FILE: seed_script.dfy ===
/**
 * The seeding loops, in the order the script runs them. Each loop inserts
 * one row per counter value; here it appends the row's foreign keys to a
 * sequence, and the database writes themselves are not modelled.
 */
module SeedScript {
  import opened Wrappers
  import opened Seed

  /** Subject and class of each of teacher 1's fifteen fixed lessons, Monday to Friday. */
  const TeacherOneLessons: seq<(int, int)> := [
    (1, 1), (1, 2), (2, 1),
    (1, 1), (2, 2), (1, 2),
    (2, 1), (1, 1), (2, 2),
    (1, 2), (2, 1), (1, 1),
    (2, 2), (1, 2), (2, 1)]

  /** The class loop: class i is in grade i, with capacity 15 + draws[i - 1] and no supervisor yet. */
  method SeedClasses(draws: seq<int>) returns (classes: seq<ClassSeed>)
    requires |draws| == ClassCount
    requires forall j :: 0 <= j < |draws| ==> 0 <= draws[j] <= 5
    ensures |classes| == ClassCount
    ensures forall j :: 0 <= j < ClassCount ==>
              classes[j] == ClassSeed(ClassGrade(j + 1), Capacity(draws[j]), None)
  {
    classes := [];
    for i := 1 to ClassCount + 1
      invariant |classes| == i - 1
      invariant forall j :: 0 <= j < i - 1 ==> classes[j] == ClassSeed(ClassGrade(j + 1), Capacity(draws[j]), None)
    {
      classes := classes + [ClassSeed(ClassGrade(i), Capacity(draws[i - 1]), None)];
    }
  }

  /** Teacher 1 (subjects and classes 1 and 2), then the loop over teachers 2..15. */
  method SeedTeachers() returns (teachers: seq<TeacherSeed>)
    ensures |teachers| == TeacherCount
    ensures teachers[0] == TeacherSeed({1, 2}, {1, 2})
    ensures forall j :: 1 <= j < TeacherCount ==>
              teachers[j] == TeacherSeed({TeacherSubject(j + 1)}, TeacherClasses(j + 1))
  {
    teachers := [TeacherSeed({1, 2}, {1, 2})];
    for i := 2 to TeacherCount + 1
      invariant |teachers| == i - 1
      invariant teachers[0] == TeacherSeed({1, 2}, {1, 2})
      invariant forall j :: 1 <= j < i - 1 ==> teachers[j] == TeacherSeed({TeacherSubject(j + 1)}, TeacherClasses(j + 1))
    {
      teachers := teachers + [TeacherSeed({TeacherSubject(i)}, TeacherClasses(i))];
    }
  }

  /** The supervisor updates made after the teachers exist. */
  method AssignSupervisors(classes: seq<ClassSeed>) returns (updated: seq<ClassSeed>)
    requires |classes| == ClassCount
    ensures |updated| == ClassCount
    ensures forall j :: 0 <= j < ClassCount ==>
              updated[j] == classes[j].(supervisor := Some(Supervisor(j + 1)))
  {
    updated := classes;
    updated := updated[0 := updated[0].(supervisor := Some(1))];
    updated := updated[1 := updated[1].(supervisor := Some(1))];
    updated := updated[2 := updated[2].(supervisor := Some(2))];
    updated := updated[3 := updated[3].(supervisor := Some(3))];
    updated := updated[4 := updated[4].(supervisor := Some(4))];
    updated := updated[5 := updated[5].(supervisor := Some(5))];
  }

  /** Teacher 1's fifteen lessons (ids 1..15), then the loop over lessons 16..30. */
  method SeedLessons() returns (lessons: seq<LessonSeed>)
    ensures |lessons| == LessonCount
    ensures forall j :: 0 <= j < 15 ==>
              lessons[j] == LessonSeed(TeacherOneLessons[j].0, TeacherOneLessons[j].1, 1)
    ensures forall j :: 15 <= j < LessonCount ==>
              lessons[j] == LessonSeed(LessonSubject(j + 1), LessonClass(j + 1), LessonTeacher(j + 1))
  {
    lessons := [];
    for j := 0 to |TeacherOneLessons|
      invariant |lessons| == j
      invariant forall k :: 0 <= k < j ==> lessons[k] == LessonSeed(TeacherOneLessons[k].0, TeacherOneLessons[k].1, 1)
    {
      lessons := lessons + [LessonSeed(TeacherOneLessons[j].0, TeacherOneLessons[j].1, 1)];
    }
    for i := 16 to LessonCount + 1
      invariant |lessons| == i - 1
      invariant forall k :: 0 <= k < 15 ==> lessons[k] == LessonSeed(TeacherOneLessons[k].0, TeacherOneLessons[k].1, 1)
      invariant forall k :: 15 <= k < i - 1 ==>
                  lessons[k] == LessonSeed(LessonSubject(k + 1), LessonClass(k + 1), LessonTeacher(k + 1))
    {
      lessons := lessons + [LessonSeed(LessonSubject(i), LessonClass(i), LessonTeacher(i))];
    }
  }

  /** The student loop over 1..50. */
  method SeedStudents() returns (students: seq<StudentSeed>)
    ensures |students| == StudentCount
    ensures forall j :: 0 <= j < StudentCount ==>
              students[j] == StudentSeed(StudentParent(j + 1), StudentGrade(j + 1), StudentClass(j + 1))
  {
    students := [];
    for i := 1 to StudentCount + 1
      invariant |students| == i - 1
      invariant forall j :: 0 <= j < i - 1 ==>
                  students[j] == StudentSeed(StudentParent(j + 1), StudentGrade(j + 1), StudentClass(j + 1))
    {
      students := students + [StudentSeed(StudentParent(i), StudentGrade(i), StudentClass(i))];
    }
  }

  /** The exam loop and the assignment loop (the same shape): the lesson of row i in 1..10. */
  method SeedWorkLessons() returns (lessonIds: seq<int>)
    ensures |lessonIds| == 10
    ensures forall j :: 0 <= j < 10 ==> lessonIds[j] == WorkLesson(j + 1)
  {
    lessonIds := [];
    for i := 1 to 11
      invariant |lessonIds| == i - 1
      invariant forall j :: 0 <= j < i - 1 ==> lessonIds[j] == WorkLesson(j + 1)
    {
      lessonIds := lessonIds + [WorkLesson(i)];
    }
  }

  /** The result loop: result i belongs to student i and to exam i or assignment i - 5. */
  method SeedResults() returns (results: seq<ResultSeed>)
    ensures |results| == ResultCount
    ensures forall j :: 0 <= j < ResultCount ==>
              results[j] == ResultSeed(j + 1, ResultTarget(j + 1).0, ResultTarget(j + 1).1)
  {
    results := [];
    for i := 1 to ResultCount + 1
      invariant |results| == i - 1
      invariant forall j :: 0 <= j < i - 1 ==> results[j] == ResultSeed(j + 1, ResultTarget(j + 1).0, ResultTarget(j + 1).1)
    {
      var target := ResultTarget(i);
      results := results + [ResultSeed(i, target.0, target.1)];
    }
  }

  /** The attendance loop: student i was present at lesson `(i % 30) + 1`. */
  method SeedAttendances() returns (attendances: seq<AttendanceSeed>)
    ensures |attendances| == AttendanceCount
    ensures forall j :: 0 <= j < AttendanceCount ==> attendances[j] == AttendanceSeed(j + 1, WorkLesson(j + 1))
  {
    attendances := [];
    for i := 1 to AttendanceCount + 1
      invariant |attendances| == i - 1
      invariant forall j :: 0 <= j < i - 1 ==> attendances[j] == AttendanceSeed(j + 1, WorkLesson(j + 1))
    {
      attendances := attendances + [AttendanceSeed(i, WorkLesson(i))];
    }
  }

  /** The event loop and the announcement loop (the same shape): the class of row i in 1..5. */
  method SeedNoticeClasses() returns (classIds: seq<int>)
    ensures |classIds| == 5
    ensures forall j :: 0 <= j < 5 ==> classIds[j] == NoticeClass(j + 1)
  {
    classIds := [];
    for i := 1 to 6
      invariant |classIds| == i - 1
      invariant forall j :: 0 <= j < i - 1 ==> classIds[j] == NoticeClass(j + 1)
    {
      classIds := classIds + [NoticeClass(i)];
    }
  }

  /**
   * The whole script: every foreign key names a row inserted earlier, each
   * result has exactly one of an exam and an assignment, students sit in a
   * class of their own grade, and no class is over capacity.
   */
  method SeedAll(draws: seq<int>) returns (f: Fixture)
    requires |draws| == ClassCount
    requires forall j :: 0 <= j < |draws| ==> 0 <= draws[j] <= 5
    ensures |f.classes| == ClassCount && |f.teachers| == TeacherCount && |f.lessons| == LessonCount
    ensures |f.students| == StudentCount && |f.exams| == ExamCount && |f.assignments| == AssignmentCount
    ensures |f.results| == ResultCount && |f.attendances| == AttendanceCount
    ensures |f.events| == EventCount && |f.announcements| == AnnouncementCount
    ensures forall j :: 0 <= j < ClassCount ==> f.classes[j].supervisor.Some?
    ensures forall j :: 0 <= j < |f.lessons| && f.lessons[j].teacher == 1 ==>
              f.lessons[j].subjectId in f.teachers[0].subjects && f.lessons[j].classId in f.teachers[0].classes
    ensures ForeignKeysResolve(f)
    ensures ResultsLinkOne(f)
    ensures StudentsInClassGrade(f)
    ensures FixtureWithinCapacity(f)
  {
    var classes := SeedClasses(draws);
    var teachers := SeedTeachers();
    classes := AssignSupervisors(classes);
    var lessons := SeedLessons();
    var students := SeedStudents();
    var exams := SeedWorkLessons();
    var assignments := SeedWorkLessons();
    var results := SeedResults();
    var attendances := SeedAttendances();
    var events := SeedNoticeClasses();
    var announcements := SeedNoticeClasses();
    f := Fixture(classes, teachers, lessons, students, exams, assignments, results, attendances,
                 events, announcements);
    forall k | 1 <= k <= ClassCount
      ensures ClassLoad(students, k) <= classes[k - 1].capacity
    {
      ClassLoadBound(students, k);
    }
  }
}

=== FILE: table_filter.dfy ===
/**
 * The filter menu of a list page: set or delete one query parameter per
 * choice, clear the whole query, and show each parameter's current value.
 */
module TableFilter {
  import opened Query

  /** The query after choosing `value` for `param`: the empty choice ("All") deletes it. */
  function Filtered(q: Params, param: string, value: string): (r: Params)
    ensures AgreeExcept(q, r, {param})
    ensures value == "" ==> param !in r
    ensures value != "" ==> param in r && r[param] == value
  {
    if value == "" then q - {param} else q[param := value]
  }

  /** The value a filter's select shows: `searchParams.get(param) || ""`. */
  function Selected(q: Params, param: string): (r: string)
    ensures param !in q ==> r == ""
    ensures param in q ==> r == q[param]
  {
    Lookup(q, param).GetOr("")
  }

  /** Choosing the same value twice is the same as choosing it once. */
  lemma FilterIdempotent(q: Params, param: string, value: string)
    ensures Filtered(Filtered(q, param, value), param, value) == Filtered(q, param, value)
  {
  }

  /** Reading the parameter back gives the value just chosen (`""` after a delete). */
  lemma FilterReadBack(q: Params, param: string, value: string)
    ensures Selected(Filtered(q, param, value), param) == value
  {
  }

  /** Filters on different parameters commute. */
  lemma FiltersCommute(q: Params, p1: string, v1: string, p2: string, v2: string)
    requires p1 != p2
    ensures Filtered(Filtered(q, p1, v1), p2, v2) == Filtered(Filtered(q, p2, v2), p1, v1)
  {
    var a := Filtered(Filtered(q, p1, v1), p2, v2);
    var b := Filtered(Filtered(q, p2, v2), p1, v1);
    forall k
      ensures Lookup(a, k) == Lookup(b, k)
    {
    }
    forall k
      ensures k in a <==> k in b
    {
      assert Lookup(a, k).Some? <==> k in a;
      assert Lookup(b, k).Some? <==> k in b;
    }
    forall k | k in a
      ensures a[k] == b[k]
    {
      assert Lookup(a, k) == Lookup(b, k);
    }
  }

  /** The filter menu component: the query it reads and pushes, and whether it is open. */
  class FilterMenu {
    var params: Params
    var isOpen: bool

    /** The menu starts closed. */
    constructor (query: Params)
      ensures params == query && !isOpen
    {
      params := query;
      isOpen := false;
    }

    /** `handleFilter`: edit a copy of the query, push it, and close the menu. */
    method HandleFilter(param: string, value: string)
      modifies this
      ensures params == Filtered(old(params), param, value)
      ensures !isOpen
    {
      var p := params;
      if value == "" {
        p := p - {param};
      } else {
        p := p[param := value];
      }
      params := p;
      isOpen := false;
    }

    /** `clearFilters`: navigate to the bare path, dropping every parameter (sort and order too), and close. */
    method ClearFilters()
      modifies this
      ensures params == map[]
      ensures forall k :: Selected(params, k) == ""
      ensures !isOpen
    {
      params := map[];
      isOpen := false;
    }

    /** The menu button flips the open state. */
    method Toggle()
      modifies this`isOpen
      ensures isOpen == !old(isOpen)
    {
      isOpen := !isOpen;
    }

    /** A click on the backdrop closes the menu. */
    method Dismiss()
      modifies this`isOpen
      ensures !isOpen
    {
      isOpen := false;
    }
  }
}

=== FILE: table_sort.dfy ===
/**
 * The sort menu of a list page: a three-state cycle over the `sort` and
 * `order` query parameters, plus the menu's open/closed state.
 */
module TableSort {
  import opened Wrappers
  import opened Query

  const Asc := "asc"
  const Desc := "desc"
  const UpArrow := "↑"
  const DownArrow := "↓"

  /**
   * The query after choosing `field` in the menu: a new field starts
   * ascending; the current field goes ascending -> descending -> unsorted,
   * and an absent or unrecognised order starts again at ascending.
   */
  function NextSort(q: Params, field: string): (r: Params)
    ensures AgreeExcept(q, r, {SortKey, OrderKey})
    ensures Lookup(q, SortKey) != Some(field) ==>
              Lookup(r, SortKey) == Some(field) && Lookup(r, OrderKey) == Some(Asc)
    ensures Lookup(q, SortKey) == Some(field) && Lookup(q, OrderKey) == Some(Asc) ==>
              Lookup(r, SortKey) == Some(field) && Lookup(r, OrderKey) == Some(Desc)
    ensures Lookup(q, SortKey) == Some(field) && Lookup(q, OrderKey) == Some(Desc) ==>
              Lookup(r, SortKey) == None && Lookup(r, OrderKey) == None
    ensures Lookup(q, SortKey) == Some(field) && Lookup(q, OrderKey) != Some(Asc) && Lookup(q, OrderKey) != Some(Desc) ==>
              Lookup(r, SortKey) == Some(field) && Lookup(r, OrderKey) == Some(Asc)
  {
    if Lookup(q, SortKey) == Some(field) then
      if Lookup(q, OrderKey) == Some(Asc) then q[OrderKey := Desc]
      else if Lookup(q, OrderKey) == Some(Desc) then q - {SortKey, OrderKey}
      else q[OrderKey := Asc]
    else
      q[SortKey := field][OrderKey := Asc]
  }

  /** The option for `field` is highlighted: it is the current sort field. */
  predicate IsActive(q: Params, field: string) {
    Lookup(q, SortKey) == Some(field)
  }

  /** The arrow shown beside the option for `field`, if any. */
  function Arrow(q: Params, field: string): (r: Option<string>)
    ensures r.Some? <==> IsActive(q, field)
    ensures r.Some? ==> (r.value == UpArrow <==> Lookup(q, OrderKey) == Some(Asc))
    ensures r.Some? ==> (r.value == DownArrow <==> Lookup(q, OrderKey) != Some(Asc))
  {
    if IsActive(q, field) then
      Some(if Lookup(q, OrderKey) == Some(Asc) then UpArrow else DownArrow)
    else
      None
  }

  /** From an unsorted query, three choices of one field go asc, desc, and back to the original query. */
  lemma SortCycle(q: Params, field: string)
    requires SortKey !in q && OrderKey !in q
    ensures Lookup(NextSort(q, field), OrderKey) == Some(Asc)
    ensures Lookup(NextSort(NextSort(q, field), field), OrderKey) == Some(Desc)
    ensures NextSort(NextSort(NextSort(q, field), field), field) == q
  {
    var q1 := NextSort(q, field);
    var q2 := NextSort(q1, field);
    var q3 := NextSort(q2, field);
    assert Lookup(q, SortKey) == None;
    assert Lookup(q2, SortKey) == Some(field) && Lookup(q2, OrderKey) == Some(Desc);
    forall k
      ensures Lookup(q3, k) == Lookup(q, k)
    {
    }
    forall k
      ensures k in q3 <==> k in q
    {
      assert Lookup(q3, k).Some? <==> k in q3;
    }
    forall k | k in q
      ensures q3[k] == q[k]
    {
      assert Lookup(q3, k) == Lookup(q, k);
    }
  }

  /** The sort menu component: the query it reads and pushes, and whether it is open. */
  class SortMenu {
    var params: Params
    var isOpen: bool

    /** The menu starts closed. */
    constructor (query: Params)
      ensures params == query && !isOpen
    {
      params := query;
      isOpen := false;
    }

    /** `handleSort`: edit a copy of the query with set/delete, push it, and close the menu. */
    method HandleSort(value: string)
      modifies this
      ensures params == NextSort(old(params), value)
      ensures !isOpen
    {
      var p := params;
      var currentSort := Lookup(p, SortKey);
      var currentOrder := Lookup(p, OrderKey);
      if currentSort == Some(value) {
        if currentOrder == Some(Asc) {
          p := p[OrderKey := Desc];
        } else if currentOrder == Some(Desc) {
          p := p - {SortKey};
          p := p - {OrderKey};
        } else {
          p := p[OrderKey := Asc];
        }
      } else {
        p := p[SortKey := value];
        p := p[OrderKey := Asc];
      }
      params := p;
      isOpen := false;
    }

    /** The menu button flips the open state. */
    method Toggle()
      modifies this`isOpen
      ensures isOpen == !old(isOpen)
    {
      isOpen := !isOpen;
    }

    /** A click on the backdrop closes the menu. */
    method Dismiss()
      modifies this`isOpen
      ensures !isOpen
    {
      isOpen := false;
    }
  }
}

=== FILE: wrappers.dfy ===
/** Optional values, standing in for JavaScript's `undefined` / `null`. */
module Wrappers {

  datatype Option<+T> = None | Some(value: T) {

    /** The value, or `default` when there is none. */
    function GetOr(default: T): T {
      match this
      case Some(v) => v
      case None => default
    }
  }
}
